=== FILE: README.md ===
# Gamma presentation pipeline — a Dafny model

This project models the decision logic of `main.py`. The tool submits a document's text to the Gamma
generation API and polls the generation job until it ends. It then exports the resulting presentation as
a PDF, first through direct export endpoints and then through browser automation. A JSON ledger of past
generations keeps a file that was already processed from being submitted again.

The HTTP calls, Selenium, the clock, the file hash and the ledger file are all taken out. What remains is
a set of pure functions and one loop. Remote replies, the clock, the hash and the outcomes of writes are
their inputs:

- `common.dfy` (`Common`): Option, bytes, and the string tests the tool applies (ASCII `lower`,
  substring, prefix and suffix, and blankness over Python's whitespace set).
- `ledger.dfy` (`Ledger`): the generation ledger. It is a map from generation id to record, plus the
  dict's key order. It provides the dedup lookup, insert/overwrite and merge-update.
- `polling.dfy` (`Polling`): `check_generation_status` and the `wait_for_completion` loop. The loop runs
  over an abstract stream of poll results. The clock advances at least `check_interval` per sleep.
- `export.dfy` (`Export`): the document-id regex, the candidate export URLs and the per-response
  classification with its content-type/magic-byte check. It also holds the API-then-browser chains of
  `download_pdf` and `download_pptx`.
- `input.dfy` (`Input`): the image-URL filters, the appended image section (at most 20 URLs), the
  400000-character cap and the additional instructions.
- `submission.dfy` (`Submission`): the request payload of `generate_presentation` and how its reply is
  read.
- `orchestrator.dfy` (`Orchestrator`): `process_file` over an environment of oracles. Its main property
  is idempotency: once a generation is recorded, a non-forced rerun on the same file does not submit.

Behaviour of `main.py` worth knowing (each is modelled as written):

- `add_generation_record` overwrites an existing id with a fresh record. This resets `created_at` and
  drops the download fields (`Ledger.AddRecord`). It does not merge the old and new records.
- The dedup lookup takes the first record in ledger order that matches by path or by hash. The two
  criteria count the same. A failed hash disables the lookup entirely, including the path check.
- In `wait_for_completion`, the clock is checked before each poll with a strict `<`. So with a 10-second
  budget, a 5-second interval and no latency, the stream pending, processing, completed times out after
  two polls instead of completing (`Polling.ScenarioTimesOutAtBoundary`). With 11 seconds it completes
  on the third poll.
- The file hash is computed separately for the lookup and for the new record, and the clock is read
  separately when the record is added and when the download outcome is written after the export.
  `Orchestrator.Env` carries each reading on its own. A failed lookup hash therefore sends even a
  file whose path is in the ledger down the generation path (`Orchestrator.FailedLookupHashRegenerates`).
- `use_browser` never changes the export chain. The browser runs iff Selenium imported
  (`Export.UseBrowserHasNoEffect`).

## Model

| member | source | states |
|---|---|---|
| Common.SeparatorIsBlank | main.py:904 | `str.strip` removes the ASCII separator U+001C, so a text made of it alone is blank, while one with a letter after it is not |
| Common.StripEmptyIffBlank | main.py:904 | `str.strip` (leading and trailing `str.isspace` characters removed) leaves nothing exactly when every character is whitespace, so the blank test is `not text.strip()` |
| Ledger.FirstMatch | main.py:144-149 | the position found matches, and no earlier position at or after the start matches |
| Ledger.CheckExisting | main.py:129-149 | a failed (None or empty) hash gives not-found without looking at the ledger; a found record is the first one in dict order whose path equals the resolved path or whose hash equals the file hash; not-found means no record matches either way |
| Ledger.Put | main.py:180 | dict assignment: the key maps to the new record, an existing key keeps its position, a new key is appended, the key order stays duplicate-free |
| Ledger.AddRecord | main.py:152-181 | a failed hash or a failed save returns False and leaves the ledger; otherwise the id maps to a fresh record with the given path, name, hash, URL and status, created_at = updated_at = now and no download fields; any prior record under the id is overwritten; every other key is unchanged |
| Ledger.UpdateRecord | main.py:184-193 | an unknown id returns False and changes nothing; on a known id each supplied field takes its new value, unsupplied fields and created_at keep theirs, updated_at becomes now, and every other record and the key order are untouched |
| Ledger.ApplyPatchIdempotent | main.py:189-190 | merging the same keyword arguments twice is merging them once, and merging none only refreshes updated_at |
| Ledger.AddThenFound | main.py:135-181 | after a successful insert, the dedup lookup for the same path and hash finds a record |
| Ledger.UpdatePreservesLookup | main.py:144-193 | an update that does not supply file_path or file_hash leaves the dedup lookup's answer at the same position |
| Polling.CheckGenerationStatus | main.py:338-363 | a non-200 reply or a JSON null status is a query error; a missing status reads as "unknown"; otherwise the status and the body are passed on |
| Polling.KeepsPollingIffNotTerminal | main.py:382-398 | the loop sleeps and polls again exactly on a successful query whose status is neither completed nor failed, and returns a result exactly on those two |
| Polling.ElapsedAtLeast | main.py:379-398 | the clock reading at the k-th check is at least k times the check interval |
| Polling.AwaitFrom | main.py:377-401 | the loop makes at least as many polls as it had made when it started, and a success always comes with a result |
| Polling.AwaitFromInBudget | main.py:379-398 | every poll happens while elapsed < max_wait; all polls but the last saw pending, processing or an unknown status |
| Polling.AwaitFromStops | main.py:379-401 | the loop stops only on a terminal poll or once elapsed >= max_wait |
| Polling.AwaitFromOutcome | main.py:381-395 | success iff the last poll saw completed; a result is returned iff the last poll saw completed or failed, and it is that poll's body |
| Polling.WaitForCompletion | main.py:366-401 | the loop returns the same (success, result, poll count) as the reference definition, and no poll starts once (polls - 1) * interval reaches max_wait |
| Polling.PollCountBound | main.py:379-398 | no polls when max_wait <= 0; otherwise at most ceil(max_wait / interval) polls |
| Polling.StepPolling | main.py:393-398 | a pending, processing or unknown status seen within the budget hands over to the next check |
| Polling.SkipPolling | main.py:393-398 | non-terminal statuses seen within the budget do not change where the loop ends |
| Polling.QueryErrorEndsLoop | main.py:380-383 | a query error seen within the budget ends the loop with (False, None) right after that poll |
| Polling.NullStatusEndsLoop | main.py:359-363 | a 200 reply whose status is JSON null ends the loop at the first poll with (False, None), the same as a failed request |
| Polling.QueryErrorAfterPolling | main.py:379-398 | a query error after n in-budget polls that kept the loop going ends it with (False, None) after n + 1 polls |
| Polling.CompletedIffObserved | main.py:379-389 | success on poll n+1 iff poll n+1 sees completed within the budget after n non-terminal polls within the budget |
| Polling.ScenarioTimesOutAtBoundary | main.py:379-401 | budget 10, interval 5, no latency, stream pending, processing, completed: (False, None) after 2 polls |
| Polling.ScenarioCompletesWithSlack | main.py:379-389 | the same stream with budget 11 succeeds on the third poll |
| Polling.SelectGammaUrl | main.py:949-953 | the chosen URL is non-empty and is gammaUrl when that is truthy, otherwise url; none iff both are falsy |
| Export.RunEnd | main.py:425 | the greedy `[^/?]+` run: every character before the end is neither / nor ?, and the end is the string's end or a / or ? |
| Export.FirstDocs | main.py:425 | the leftmost position where `/docs/` followed by an id character occurs |
| Export.DocId | main.py:424-427 | a doc id exists iff `/docs/` followed by a character other than / and ? occurs; it is the maximal run of such characters after the leftmost such occurrence |
| Export.DocIdOfDocumentUrl | main.py:425-427 | a `https://gamma.app/docs/<id>` URL, optionally followed by / or ? and more, yields exactly `<id>` |
| Export.ExportUrls | main.py:430-439 | with a doc id: docs-export, generations-export, gamma.app export, in that order; without: generations-export alone |
| Export.GenerationEndpointAlwaysTried | main.py:430-439 | there are 3 candidates iff a doc id is found and 1 otherwise; the generations-export URL is always among them |
| Export.Classify | main.py:446-484 | accepted iff a 200 reply passes the format check; a 200 that fails it is a format mismatch; 202 is not-ready; other codes are failures; an exception is an error |
| Export.OtherFormatNeverAccepted | main.py:451-462 | a format other than pdf or pptx is never accepted |
| Export.HtmlIsNotPdf | main.py:452-456 | a pdf request answered 200 with a content type not mentioning pdf and no %PDF signature is a format mismatch |
| Export.FormatCheckIgnoresCase | main.py:451-462 | the format check lower-cases the Content-Type, so its case does not matter; a body starting with `%PDF` passes the pdf check and one starting with `PK` the pptx check, whatever the Content-Type says |
| Export.TryCandidates | main.py:441-486 | candidates are requested strictly in order; the loop stops at the first accepted response and only then succeeds; exhausting the list fails having requested every candidate; the bytes written are exactly the accepted body, and nothing is written on failure |
| Export.DownloadViaApi | main.py:404-486 | at least one and at most all candidate endpoints are requested; the strategy succeeds iff some candidate's response is accepted, and then the body written is that of the first accepted one, every earlier one having been rejected |
| Export.WrittenBodyPassedCheck | main.py:464-470 | anything the API strategy writes is the body of a 200 reply that passed the format check |
| Export.RejectedAdvances | main.py:471-484 | a rejected response (202, other status, exception, mismatch) leaves the outcome to the next candidate |
| Export.HtmlReplyMovesOn | main.py:446-473 | a 200 text/html reply from the first endpoint does not end the chain: the outcome is that of the remaining candidates |
| Export.DownloadPdf | main.py:757-802 | succeeds iff the API strategy succeeds or Selenium is available and the browser succeeds; the browser is tried iff the API failed and Selenium is available |
| Export.DownloadPptx | main.py:805-836 | the same chain for pptx, with the same success and browser-attempt conditions |
| Export.UseBrowserHasNoEffect | main.py:780-790 | the use_browser flag does not change either chain's outcome |
| Input.PdfImageIsDocxImage | main.py:899 | every URL the PDF filter keeps, the docx filter keeps too |
| Input.ImageTestsIgnoreCase | main.py:78-82 | both image tests see only the lower-cased URL, so a URL and its lower-cased form are judged alike |
| Input.PdfImageTestIsNarrower | main.py:899 | the .pdf test is strictly narrower than the .docx one: a `.BMP` URL and an imgur URL without extension pass the .docx test and fail the .pdf test |
| Input.DocxImageUrls | main.py:75-85 | the result is duplicate-free and holds exactly the image URLs of the input (by extension or image host, case-insensitively) |
| Input.DocxImageUrlsExtendsPrefix | main.py:78-85 | the filter's result for a prefix of the URL list is a prefix of its result for the whole list, so URLs are listed in order of first appearance |
| Input.PdfImageUrls | main.py:896-899 | every kept URL has an image extension, and each URL occurs as often as in the input if it is an image URL and not at all otherwise |
| Input.PdfImageUrlsAreFound | main.py:896-899 | every URL the .pdf filter keeps was found in the text and passes the .docx test too |
| Input.PdfImageUrlsAppend | main.py:899 | filtering a concatenation is concatenating the filtered parts, so the kept URLs keep the input's order (which decides the 20 that are sent) |
| Input.LinesRoundTrip | main.py:914-916 | the appended lines read back as exactly the URLs written, in order |
| Input.UrlInLines | main.py:915-916 | each URL written occurs verbatim in the lines |
| Input.ImageSectionReadsBack | main.py:913-916 | the image section is the header followed by lines that read back as exactly the first 20 URLs, in order |
| Input.Truncate | main.py:920-923 | the result is a prefix of at most 400000 characters; shorter texts are unchanged; longer ones keep exactly 400000 |
| Input.AssembleInput | main.py:911-936 | has_image_urls iff there are image URLs; the input text is a prefix of the text with the image section, at most 400000 characters, all of it when that fits and exactly 400000 characters when it does not |
| Input.SectionListsFirstUrls | main.py:911-923 | when nothing is cut, the input text is the extracted text, the header, then exactly the first min(n, 20) URLs one per line |
| Input.ImageUrlsAppearVerbatim | main.py:911-923 | when nothing is cut, each of the first 20 image URLs occurs verbatim in the input text |
| Input.AdditionalInstructions | main.py:928-930 | the fixed base sentence always comes first, and more follows iff there are image URLs |
| Submission.BuildRequest | main.py:257-316 | imageOptions.source is noImages iff image URLs exist, else aiGenerated; model and style are present iff the source is aiGenerated; themeId, numCards and additionalInstructions are sent iff truthy and then as given |
| Submission.Submit | main.py:248-335 | no credential is an auth error; a status other than 200 or 201 is a rejection; a job id is returned iff the credential and status are good and the reply's generationId is truthy |
| Orchestrator.Finish | main.py:957-976 | after a completed generation the run is submitted and exports this Gamma URL under this generation id with the configured browser flag, and its result is the export's result; it is recorded iff the record's hash and the save succeed; a recorded run's record under the id holds this id, this URL, status "completed", the resolved path, the file name and the recorded hash, created at the add's clock reading; when the update is saved the record's pdf_downloaded is the export's result, pdf_path is the output path on success and updated_at is the update's clock reading, and when it is not the record stays as added; no generation id is lost and every record under another id is unchanged; records keep a Gamma URL |
| Orchestrator.RecordGeneration | main.py:957-974 | the add before the export and the update after it: the add succeeds iff the hash and the save do, and then the record under the id holds this file, URL and status, and the export's outcome once the update is saved; no generation id is lost and every record under another id is unchanged (the update runs even after a failed add) |
| Orchestrator.RequestFor | main.py:885-937 | a request is built iff the file kind is supported and the text is non-blank; its inputText is the assembled, capped text; its image source is noImages iff image URLs were found, an image model is sent iff none were, and the instructions mention images iff there are any; the theme id is sent iff it is truthy, and no card count is sent |
| Orchestrator.Complete | main.py:943-976 | after the job was created: the outcome of the wait loop is recorded; the export runs iff the wait succeeded with a Gamma URL, and exports that URL under the generation id; the run is recorded iff it exported and the record's hash and save succeed, and the record under the id then holds that URL and status "completed"; no generation id is lost and every record under another id is unchanged; without an export the run fails and, unrecorded, leaves the ledger |
| Orchestrator.Post | main.py:932-976 | once the request is built: it is posted iff a credential exists; polling runs iff a generation id came back; the export runs iff polling succeeded with a Gamma URL, under that id; the run is recorded iff it exported and the record's hash and save succeed; without an export the ledger is unchanged, with one only the record under the id can change |
| Orchestrator.Generate | main.py:885-976 | a request is built iff the file kind is supported and the text is non-blank; its inputText is the assembled, capped text; its image source is noImages iff image URLs were found, an image model is sent iff none were, the instructions mention images iff there are any, the theme id is sent iff truthy and no card count is sent; it is posted iff a credential exists; polling runs iff the submission returned a generation id, and its outcome is the wait loop's; the export runs iff polling succeeded with a Gamma URL, and exports that URL under the submitted generation id; the run is recorded iff it exported and the record's hash and save succeed, under that id, with that URL and status "completed"; no generation id is lost and only the record under the submitted id can change; without a submission the ledger is unchanged; without an export the run fails |
| Orchestrator.ImageUrlsOf | main.py:886-899 | every image URL used was found in the text and passes the .docx test; for a .pdf each passes the .pdf test; for a .docx every found URL passing the test is used; an unsupported kind has none |
| Orchestrator.Reuse | main.py:862-879 | the skip path returns True, posts nothing, records nothing and leaves the ledger; it exports the recorded generation (without the browser flag) iff the output file is missing |
| Orchestrator.ProcessFile | main.py:839-976 | a missing file fails with nothing done; a forced run, a lookup that finds nothing, or a found record without a Gamma URL takes the generation path; no generation id is ever lost; without a submission the ledger is unchanged; a recorded run leaves a record with the file's path and hash; records keep their Gamma URL |
| Orchestrator.FoundRecordCarriesUrl | main.py:856-866 | for a known file the lookup finds a record, and it carries a Gamma URL when the first match in dict order does |
| Orchestrator.KnownFileIsNotResubmitted | main.py:856-881 | a non-forced run on a file the ledger knows, whose first matching record has a Gamma URL, returns True, posts nothing and leaves the ledger; it exports iff the output file is missing, so with the output present no remote call is made |
| Orchestrator.FailedLookupHashRegenerates | main.py:129-136 | when the lookup's hash read fails, a non-forced run takes the generation path even for a file whose path the ledger holds |
| Orchestrator.RecordedFileIsKnown | main.py:958-974 | after a recorded run the ledger knows the file by its path alone and by its recorded hash alone |
| Orchestrator.SecondRunDoesNotSubmit | main.py:856-958 | on a ledger whose records all carry a Gamma URL, once a run recorded its generation, a later non-forced run with a working lookup hash, on the same path or with a lookup hash equal to the recorded one, does not submit |
| Orchestrator.ForcedRunRecords | main.py:932-976 | a forced run whose request is built and accepted, whose job completes with a Gamma URL and whose record is hashed and saved does record, and a later non-forced run on the same path then does not submit |

## Left out

- File I/O of `load_records` and `save_records`. The ledger is an in-memory value, and the outcome of
  each save is a boolean input. A failed save keeps the previous ledger. In the source, a write that
  fails after opening the file can leave a truncated file, which the next load reads as an empty ledger.
- `get_file_hash` (MD5 over 4096-byte chunks) is an input of type `Option<string>`.
- Text extraction from .docx and .pdf files and the URL regex scan are inputs. The model takes the text
  and the URLs found in it.
- `download_via_browser`: the Selenium and Chrome lifecycle, selectors, clicks and the download-directory
  polling. It is foreign, stateful and timing-dependent, so the whole strategy is a boolean outcome.
- `list_generations`, `main` (argument parsing, directory scanning), dotenv loading and every `print`.
  Environment values are fields of `Orchestrator.Env`.
- Ledger.AddRecord: `created_at` and `updated_at` come from one timestamp. The source reads the clock
  twice, so the two can differ by the clock's resolution.
- Ledger.UpdateRecord: keyword arguments named `created_at` or `updated_at` are not modelled. The
  source's only caller passes `pdf_downloaded` and `pdf_path`.
- Polling.WaitForCompletion: requires `check_interval > 0`. In the source a negative interval makes
  `time.sleep` raise `ValueError` at the first pending, processing or unknown status, and a zero
  interval makes termination depend on real time passing. Neither is modelled; the only caller passes
  5. Times are integers, not floats.
- Exceptions raised by `requests` inside `check_generation_status` and `generate_presentation` are not
  caught in the source and end the run. The model has no such outcome.
- Export.TryCandidates: an exception while writing the accepted body is caught in the source, and the
  next candidate is then tried. The model treats an accepted body as written.
- Orchestrator.Generate: a missing API key ends the run with failure, where the source raises
  `ValueError`. `main` refuses to start without a key, so this path is not reachable from the CLI.
- `Common.Lower` lower-cases ASCII letters only, where Python's `str.lower` is Unicode-aware. It has
  two uses: the image tests, and the export format check, which lowers the Content-Type before looking
  for "pdf", "presentation" or "pptx". All of these targets are ASCII. The only non-ASCII letters Python
  lowers to ASCII-led text are the Kelvin sign (to `k`) and dotted capital I (to `i` plus a combining
  dot). No target contains `k`. The combining dot after an `i` cannot complete "pdf", "presentation"
  (whose only `i` is followed by `o`) or "pptx", nor an extension or host name, so both uses agree with
  Python.
- Records with missing fields (which `record.get` would read as `None`) are not modelled. Every record
  has all the fields `add_generation_record` writes.

=== FILE: common.dfy ===
/** Small shared vocabulary: an Option type, bytes, and the handful of
    string tests the tool performs on URLs, content types and file bodies. */
module Common {

  /** The conventional Some/None datatype; stands for Python's `None` or a present value. */
  datatype Option<+T> = None | Some(value: T) {
    function GetOr(default: T): T {
      match this
      case Some(v) => v
      case None => default
    }
  }

  /** One octet of an HTTP body or a file. */
  type Byte = b: int | 0 <= b < 256

  /** Python truthiness of an optional string: neither `None` nor `""`. */
  predicate Truthy(s: Option<string>) {
    s.Some? && s.value != ""
  }

  /** ASCII lower-casing of a character (Python's `str.lower` restricted to A-Z). */
  function LowerChar(c: char): char {
    if 'A' <= c <= 'Z' then (c as int + 32) as char else c
  }

  function Lower(s: string): (r: string)
    ensures |r| == |s|
    ensures forall i :: 0 <= i < |s| ==> r[i] == LowerChar(s[i])
  {
    seq(|s|, i requires 0 <= i < |s| => LowerChar(s[i]))
  }

  /** Lower-casing twice is lower-casing once. */
  lemma LowerIdempotent(s: string)
    ensures Lower(Lower(s)) == Lower(s)
  {
    assert forall i :: 0 <= i < |s| ==> LowerChar(LowerChar(s[i])) == LowerChar(s[i]);
  }

  predicate HasPrefix<T(==)>(s: seq<T>, p: seq<T>) {
    |p| <= |s| && s[..|p|] == p
  }

  predicate HasSuffix<T(==)>(s: seq<T>, p: seq<T>) {
    |p| <= |s| && s[|s| - |p|..] == p
  }

  /** `sub` occurs in `s` starting at position `i`. */
  predicate OccursAt<T(==)>(s: seq<T>, sub: seq<T>, i: int) {
    0 <= i && i + |sub| <= |s| && s[i..i + |sub|] == sub
  }

  /** Python's `sub in s` for strings. */
  predicate Contains<T(==)>(s: seq<T>, sub: seq<T>) {
    exists i | 0 <= i <= |s| - |sub| :: OccursAt(s, sub, i)
  }

  lemma OccursInConcat<T>(a: seq<T>, sub: seq<T>, b: seq<T>)
    ensures OccursAt(a + sub + b, sub, |a|)
  {
    assert (a + sub + b)[|a|..|a| + |sub|] == sub;
  }

  /** A concatenation splits back into its two parts. */
  lemma SplitConcat<T>(a: seq<T>, b: seq<T>)
    ensures (a + b)[..|a|] == a && (a + b)[|a|..] == b
  {
  }

  /** An occurrence inside `b` is an occurrence inside `a + b`, shifted by `|a|`. */
  lemma OccursShift<T>(a: seq<T>, b: seq<T>, sub: seq<T>, k: int)
    requires OccursAt(b, sub, k)
    ensures OccursAt(a + b, sub, |a| + k)
  {
    assert (a + b)[|a| + k..|a| + k + |sub|] == b[k..k + |sub|];
  }

  /** The characters Python's `str.isspace` accepts, which `str.strip` removes:
      tab to carriage return, the four ASCII separators U+001C to U+001F, space,
      and the Unicode spaces and line/paragraph separators. */
  predicate IsSpace(c: char) {
    || ('\t' <= c <= '\r')
    || ('\U{1C}' <= c <= ' ')
    || c == '\U{85}' || c == '\U{A0}' || c == '\U{1680}'
    || ('\U{2000}' <= c <= '\U{200A}')
    || c == '\U{2028}' || c == '\U{2029}' || c == '\U{202F}' || c == '\U{205F}' || c == '\U{3000}'
  }

  /** The separator U+001C is whitespace: a text made of it alone is blank. */
  lemma SeparatorIsBlank()
    ensures IsBlank("\U{1C}")
    ensures !IsBlank("\U{1C}a")
  {
    assert "\U{1C}a"[1] == 'a';
  }

  /** `not s.strip()`: the string is empty or consists of whitespace only. */
  predicate IsBlank(s: string) {
    forall i :: 0 <= i < |s| ==> IsSpace(s[i])
  }

  /** Python's `str.lstrip()`: the string without its leading whitespace. */
  function StripStart(s: string): (r: string)
    ensures HasSuffix(s, r)
    ensures |r| > 0 ==> !IsSpace(r[0])
  {
    if |s| > 0 && IsSpace(s[0]) then StripStart(s[1..]) else s
  }

  /** Python's `str.rstrip()`: the string without its trailing whitespace. */
  function StripEnd(s: string): (r: string)
    ensures HasPrefix(s, r)
    ensures |r| > 0 ==> !IsSpace(r[|r| - 1])
    ensures |s| > 0 && !IsSpace(s[0]) ==> |r| > 0
  {
    if |s| > 0 && IsSpace(s[|s| - 1]) then StripEnd(s[..|s| - 1]) else s
  }

  /** Python's `str.strip()`. */
  function Strip(s: string): string {
    StripEnd(StripStart(s))
  }

  /** Only a blank string loses everything to `lstrip`. */
  lemma {:induction false} StripStartEmptyIffBlank(s: string)
    ensures StripStart(s) == "" <==> IsBlank(s)
  {
    if |s| > 0 && IsSpace(s[0]) {
      StripStartEmptyIffBlank(s[1..]);
      assert IsBlank(s[1..]) ==> IsBlank(s) by {
        if IsBlank(s[1..]) {
          forall i | 0 <= i < |s| ensures IsSpace(s[i]) {
            if i > 0 { assert s[i] == s[1..][i - 1]; }
          }
        }
      }
      assert IsBlank(s) ==> IsBlank(s[1..]) by {
        if IsBlank(s) {
          forall i | 0 <= i < |s[1..]| ensures IsSpace(s[1..][i]) {
            assert s[1..][i] == s[i + 1];
          }
        }
      }
    } else if |s| > 0 {
      assert !IsSpace(s[0]);
    }
  }

  /** `not s.strip()` holds exactly of the blank strings. */
  lemma StripEmptyIffBlank(s: string)
    ensures Strip(s) == "" <==> IsBlank(s)
  {
    StripStartEmptyIffBlank(s);
  }

  function Min(a: int, b: int): int {
    if a <= b then a else b
  }
}

=== FILE: export.dfy ===
/** The export strategy chain: candidate export URLs derived from the Gamma
    document URL, the per-response classification and format check of
    `download_via_api`, and the API-then-browser composition of `download_pdf`
    and `download_pptx`.

    The remote endpoints are an oracle `fetch` from URL to response; the browser
    strategy is a boolean outcome; whether Selenium imported is a boolean. */
module Export {
  import opened Common

  // ---------------------------------------------------------------------------
  // Document id: `re.search(r'/docs/([^/?]+)', gamma_url)`
  // ---------------------------------------------------------------------------

  const DocsMarker: string := "/docs/"

  /** A character of `[^/?]`. */
  predicate IdChar(c: char) {
    c != '/' && c != '?'
  }

  /** The pattern can start matching at `i`: the marker, then at least one id character. */
  predicate DocsAt(s: string, i: int) {
    OccursAt(s, DocsMarker, i) && i + 6 < |s| && IdChar(s[i + 6])
  }

  /** End of the maximal run of id characters starting at `j` (the greedy `+`). */
  function RunEnd(s: string, j: nat): (e: nat)
    requires j <= |s|
    decreases |s| - j
    ensures j <= e <= |s|
    ensures forall m :: j <= m < e ==> IdChar(s[m])
    ensures e == |s| || !IdChar(s[e])
  {
    if j == |s| || !IdChar(s[j]) then j else RunEnd(s, j + 1)
  }

  /** Leftmost position at or after `from` where the pattern matches. */
  function FirstDocs(s: string, from: nat): (r: Option<nat>)
    requires from <= |s|
    decreases |s| - from
    ensures r.Some? ==> from <= r.value && DocsAt(s, r.value)
    ensures forall i :: from <= i && DocsAt(s, i) ==> r.Some? && r.value <= i
  {
    if from == |s| then None
    else if DocsAt(s, from) then Some(from)
    else FirstDocs(s, from + 1)
  }

  /** The regex's group 1: the maximal run of characters other than `/` and `?`
      after the leftmost `/docs/` that is followed by at least one such character. */
  function DocId(url: string): (r: Option<string>)
    ensures r.Some? <==> exists i :: DocsAt(url, i)
    ensures r.Some? ==>
              exists i :: && DocsAt(url, i)
                          && (forall j :: 0 <= j < i ==> !DocsAt(url, j))
                          && i + 6 + |r.value| <= |url|
                          && r.value == url[i + 6..i + 6 + |r.value|]
                          && (i + 6 + |r.value| == |url| || !IdChar(url[i + 6 + |r.value|]))
    ensures r.Some? ==> r.value != [] && forall m :: 0 <= m < |r.value| ==> IdChar(r.value[m])
  {
    match FirstDocs(url, 0)
    case None => None
    case Some(i) => Some(url[i + 6..RunEnd(url, i + 6)])
  }

  /** A Gamma document URL yields its document id. */
  lemma DocIdOfDocumentUrl(id: string, tail: string)
    requires id != [] && forall m :: 0 <= m < |id| ==> IdChar(id[m])
    requires tail == [] || !IdChar(tail[0])
    ensures DocId("https://gamma.app/docs/" + id + tail) == Some(id)
  {
    var pre := "https://gamma.app";
    var s := pre + DocsMarker + id + tail;
    assert s == "https://gamma.app/docs/" + id + tail;
    assert |pre| == 17;
    forall j | 0 <= j < 17
      ensures !DocsAt(s, j)
    {
      assert s[j] == pre[j];
      if s[j] == '/' {
        assert j == 6 || j == 7;
        assert s[j + 1] == pre[j + 1];
        assert s[j + 1] != 'd';
        assert s[j..j + 6][1] == s[j + 1];
      } else {
        assert s[j..j + 6][0] == s[j];
      }
    }
    OccursInConcat(pre, DocsMarker, id + tail);
    assert s[23] == id[0];
    assert DocsAt(s, 17);
    assert FirstDocs(s, 0) == Some(17);
    var e := RunEnd(s, 23);
    assert forall m :: 23 <= m < 23 + |id| ==> s[m] == id[m - 23];
    assert 23 + |id| == |s| || s[23 + |id|] == tail[0];
    assert e == 23 + |id|;
    assert s[23..e] == id;
  }

  // ---------------------------------------------------------------------------
  // Candidate export URLs
  // ---------------------------------------------------------------------------

  const ApiBase: string := "https://public-api.gamma.app/v1.0"

  function DocsExportUrl(docId: string, fmt: string): string {
    ApiBase + "/docs/" + docId + "/export/" + fmt
  }

  function GenerationExportUrl(generationId: string, fmt: string): string {
    ApiBase + "/generations/" + generationId + "/export/" + fmt
  }

  function AppExportUrl(docId: string, fmt: string): string {
    "https://gamma.app/api/export/" + fmt + "/" + docId
  }

  /** The endpoints `download_via_api` tries, in order. */
  function ExportUrls(gammaUrl: string, generationId: string, fmt: string): (r: seq<string>)
    ensures DocId(gammaUrl).Some? ==>
              r == [DocsExportUrl(DocId(gammaUrl).value, fmt),
                    GenerationExportUrl(generationId, fmt),
                    AppExportUrl(DocId(gammaUrl).value, fmt)]
    ensures DocId(gammaUrl).None? ==> r == [GenerationExportUrl(generationId, fmt)]
  {
    match DocId(gammaUrl)
    case Some(d) => [DocsExportUrl(d, fmt), GenerationExportUrl(generationId, fmt), AppExportUrl(d, fmt)]
    case None => [GenerationExportUrl(generationId, fmt)]
  }

  /** The job-based endpoint is always a candidate, second when a document id is
      found and alone otherwise. */
  lemma GenerationEndpointAlwaysTried(gammaUrl: string, generationId: string, fmt: string)
    ensures var urls := ExportUrls(gammaUrl, generationId, fmt);
            && (|urls| == 3 <==> DocId(gammaUrl).Some?)
            && (|urls| == 1 <==> DocId(gammaUrl).None?)
            && urls[if |urls| == 3 then 1 else 0] == GenerationExportUrl(generationId, fmt)
  {
  }

  // ---------------------------------------------------------------------------
  // One response
  // ---------------------------------------------------------------------------

  /** What one `requests.get` yields: an exception, or a status, the
      `Content-Type` header (`""` when absent) and the body. */
  datatype Response = Raised | Http(code: int, contentType: string, body: seq<Byte>)

  /** `b'%PDF'` */
  const PdfMagic: seq<Byte> := [0x25, 0x50, 0x44, 0x46]
  /** `b'PK'`, the ZIP signature a pptx file starts with. */
  const ZipMagic: seq<Byte> := [0x50, 0x4B]

  /** The format check: content type or magic bytes must match the requested format. */
  predicate FormatMatches(fmt: string, contentType: string, body: seq<Byte>) {
    var ct := Lower(contentType);
    if fmt == "pdf" then
      Contains(ct, "pdf") || HasPrefix(body, PdfMagic)
    else if fmt == "pptx" then
      Contains(ct, "presentation") || Contains(ct, "pptx") || HasPrefix(body, ZipMagic)
    else
      false
  }

  /** How `download_via_api` reacts to one response; only `Accepted` stops the loop. */
  datatype Verdict = Accepted | NotReady | WrongFormat | HttpFailure | Errored

  function Classify(r: Response, fmt: string): (v: Verdict)
    ensures v == Accepted <==> r.Http? && r.code == 200 && FormatMatches(fmt, r.contentType, r.body)
    ensures v == WrongFormat <==> r.Http? && r.code == 200 && !FormatMatches(fmt, r.contentType, r.body)
    ensures v == NotReady <==> r.Http? && r.code == 202
    ensures v == HttpFailure <==> r.Http? && r.code != 200 && r.code != 202
    ensures v == Errored <==> r.Raised?
  {
    match r
    case Raised => Errored
    case Http(code, ct, body) =>
      if code == 200 then
        if FormatMatches(fmt, ct, body) then Accepted else WrongFormat
      else if code == 202 then NotReady
      else HttpFailure
  }

  /** The format check lower-cases the content type, so its case does not matter;
      and the body's signature alone is enough, whatever the content type says. */
  lemma FormatCheckIgnoresCase(fmt: string, ct: string, body: seq<Byte>)
    ensures FormatMatches(fmt, Lower(ct), body) == FormatMatches(fmt, ct, body)
    ensures HasPrefix(body, PdfMagic) ==> FormatMatches("pdf", ct, body)
    ensures HasPrefix(body, ZipMagic) ==> FormatMatches("pptx", ct, body)
  {
    LowerIdempotent(ct);
  }

  /** A format other than `pdf` and `pptx` is never accepted. */
  lemma OtherFormatNeverAccepted(r: Response, fmt: string)
    requires fmt != "pdf" && fmt != "pptx"
    ensures Classify(r, fmt) != Accepted
  {
  }

  /** A 200 reply to a pdf request whose content type does not mention pdf and whose
      body lacks the `%PDF` signature (an HTML page, say) is a format mismatch. */
  lemma HtmlIsNotPdf(ct: string, body: seq<Byte>)
    requires !Contains(Lower(ct), "pdf")
    requires !HasPrefix(body, PdfMagic)
    ensures Classify(Http(200, ct, body), "pdf") == WrongFormat
  {
  }

  /** The content type `text/html` does not mention pdf. */
  lemma TextHtmlHasNoPdf()
    ensures !Contains(Lower("text/html"), "pdf")
  {
    var ct := Lower("text/html");
    assert ct == "text/html";
    forall i | 0 <= i <= |ct| - 3
      ensures !OccursAt(ct, "pdf", i)
    {
      assert ct[i..i + 3][0] == ct[i];
      assert ct[i] != 'p';
    }
  }

  // ---------------------------------------------------------------------------
  // The API strategy
  // ---------------------------------------------------------------------------

  /** `(success, method_used)` plus what the strategy made: how many endpoints it
      requested and the bytes it wrote to the output path, if any. */
  datatype ApiResult = ApiResult(ok: bool, attempts: nat, written: Option<seq<Byte>>)

  /** The loop over candidate endpoints, from the `k`-th on: strictly in order,
      stopping at the first accepted response, whose body alone is written. */
  function TryCandidates(urls: seq<string>, fmt: string, fetch: string -> Response, k: nat): (r: ApiResult)
    requires k <= |urls|
    decreases |urls| - k
    ensures k <= r.attempts <= |urls|
    ensures forall i :: k <= i < r.attempts - 1 ==> Classify(fetch(urls[i]), fmt) != Accepted
    ensures r.ok <==> r.attempts > k && Classify(fetch(urls[r.attempts - 1]), fmt) == Accepted
    ensures !r.ok ==> r.attempts == |urls| && forall i :: k <= i < |urls| ==> Classify(fetch(urls[i]), fmt) != Accepted
    ensures r.written.Some? <==> r.ok
    ensures r.ok ==> r.written.value == fetch(urls[r.attempts - 1]).body
  {
    if k == |urls| then ApiResult(false, k, None)
    else
      var resp := fetch(urls[k]);
      if Classify(resp, fmt) == Accepted then ApiResult(true, k + 1, Some(resp.body))
      else TryCandidates(urls, fmt, fetch, k + 1)
  }

  /** `download_via_api`. */
  function DownloadViaApi(gammaUrl: string, generationId: string, fmt: string, fetch: string -> Response): (r: ApiResult)
    ensures var urls := ExportUrls(gammaUrl, generationId, fmt);
            && 1 <= r.attempts <= |urls|
            && (r.ok <==> exists i :: 0 <= i < |urls| && Classify(fetch(urls[i]), fmt) == Accepted)
            && (r.ok ==> && Classify(fetch(urls[r.attempts - 1]), fmt) == Accepted
                         && r.written == Some(fetch(urls[r.attempts - 1]).body)
                         && forall i :: 0 <= i < r.attempts - 1 ==> Classify(fetch(urls[i]), fmt) != Accepted)
  {
    TryCandidates(ExportUrls(gammaUrl, generationId, fmt), fmt, fetch, 0)
  }

  /** Whatever the API strategy writes is a body that passed the format check of a
      200 reply; in particular an HTML page is never written as a PDF. */
  lemma WrittenBodyPassedCheck(gammaUrl: string, generationId: string, fmt: string, fetch: string -> Response)
    ensures var r := DownloadViaApi(gammaUrl, generationId, fmt, fetch);
            r.written.Some? ==>
              exists i :: 0 <= i < |ExportUrls(gammaUrl, generationId, fmt)|
                          && var resp := fetch(ExportUrls(gammaUrl, generationId, fmt)[i]);
                          && resp.Http? && resp.code == 200 && resp.body == r.written.value
                          && FormatMatches(fmt, resp.contentType, resp.body)
  {
    var urls := ExportUrls(gammaUrl, generationId, fmt);
    var r := TryCandidates(urls, fmt, fetch, 0);
    if r.written.Some? {
      var i := r.attempts - 1;
      assert Classify(fetch(urls[i]), fmt) == Accepted;
    }
  }

  /** A rejected response (202, other status, exception or format mismatch) at the
      `k`-th candidate hands the decision to the next candidate. */
  lemma RejectedAdvances(urls: seq<string>, fmt: string, fetch: string -> Response, k: nat)
    requires k < |urls|
    requires Classify(fetch(urls[k]), fmt) != Accepted
    ensures TryCandidates(urls, fmt, fetch, k) == TryCandidates(urls, fmt, fetch, k + 1)
  {
  }

  /** A 200 HTML reply from the first endpoint never ends the chain there: the
      strategy goes on to the next candidate and the HTML body is not written. */
  lemma HtmlReplyMovesOn(urls: seq<string>, fetch: string -> Response, body: seq<Byte>)
    requires |urls| >= 1
    requires fetch(urls[0]) == Http(200, "text/html", body)
    requires !HasPrefix(body, PdfMagic)
    ensures var r := TryCandidates(urls, "pdf", fetch, 0);
            && r == TryCandidates(urls, "pdf", fetch, 1)
            && (r.ok ==> r.attempts >= 2)
  {
    TextHtmlHasNoPdf();
    HtmlIsNotPdf("text/html", body);
    RejectedAdvances(urls, "pdf", fetch, 0);
  }

  // ---------------------------------------------------------------------------
  // The two-strategy chains
  // ---------------------------------------------------------------------------

  /** The outcome of `download_pdf` / `download_pptx` and which strategies ran. */
  datatype Exported = Exported(ok: bool, api: ApiResult, browserTried: bool)

  /** `download_pdf`: the API strategy, then the browser strategy.  The guard
      `use_browser or SELENIUM_AVAILABLE` followed by `if SELENIUM_AVAILABLE`
      reduces to Selenium availability alone. */
  function DownloadPdf(gammaUrl: string, generationId: string, useBrowser: bool,
                       seleniumAvailable: bool, fetch: string -> Response, browserOk: bool): (e: Exported)
    ensures e.api == DownloadViaApi(gammaUrl, generationId, "pdf", fetch)
    ensures e.ok <==> e.api.ok || (seleniumAvailable && browserOk)
    ensures e.browserTried <==> !e.api.ok && seleniumAvailable
  {
    var api := DownloadViaApi(gammaUrl, generationId, "pdf", fetch);
    if api.ok then Exported(true, api, false)
    else if useBrowser || seleniumAvailable then
      if seleniumAvailable then Exported(browserOk, api, true)
      else Exported(false, api, false)
    else Exported(false, api, false)
  }

  /** `download_pptx`: the same chain for pptx, with the guard
      `use_browser or (not use_browser and SELENIUM_AVAILABLE)`. */
  function DownloadPptx(gammaUrl: string, generationId: string, useBrowser: bool,
                        seleniumAvailable: bool, fetch: string -> Response, browserOk: bool): (e: Exported)
    ensures e.api == DownloadViaApi(gammaUrl, generationId, "pptx", fetch)
    ensures e.ok <==> e.api.ok || (seleniumAvailable && browserOk)
    ensures e.browserTried <==> !e.api.ok && seleniumAvailable
  {
    var api := DownloadViaApi(gammaUrl, generationId, "pptx", fetch);
    if api.ok then Exported(true, api, false)
    else if useBrowser || (!useBrowser && seleniumAvailable) then
      if seleniumAvailable then Exported(browserOk, api, true)
      else Exported(false, api, false)
    else Exported(false, api, false)
  }

  /** The `use_browser` flag (the `--browser` option) changes nothing in either chain. */
  lemma UseBrowserHasNoEffect(gammaUrl: string, generationId: string, seleniumAvailable: bool,
                              fetch: string -> Response, browserOk: bool)
    ensures DownloadPdf(gammaUrl, generationId, true, seleniumAvailable, fetch, browserOk)
         == DownloadPdf(gammaUrl, generationId, false, seleniumAvailable, fetch, browserOk)
    ensures DownloadPptx(gammaUrl, generationId, true, seleniumAvailable, fetch, browserOk)
         == DownloadPptx(gammaUrl, generationId, false, seleniumAvailable, fetch, browserOk)
  {
  }
}

=== FILE: input.dfy ===
/** Input assembly for one file: the image-URL filters applied to the URLs found
    in the extracted text, the image section appended to the text, the length
    cap, and the extra instructions sent with it.

    Text extraction and the URL regex scan are not modelled: they supply the
    text and the list of URLs (in order of appearance) that these functions take. */
module Input {
  import opened Common

  // ---------------------------------------------------------------------------
  // Image URL filters
  // ---------------------------------------------------------------------------

  /** Extensions recognised for .docx input. */
  const DocxImageExts: seq<string> := [".jpg", ".jpeg", ".png", ".gif", ".webp", ".svg", ".bmp"]
  /** Extensions recognised for .pdf input (no `.bmp`). */
  const PdfImageExts: seq<string> := [".jpg", ".jpeg", ".png", ".gif", ".webp", ".svg"]
  /** Image hosting domains recognised for .docx input. */
  const ImageHosts: seq<string> := ["imgur.com", "imgbb.com", "cloudinary.com", "unsplash.com", "pexels.com"]

  predicate EndsWithAny(s: string, exts: seq<string>) {
    exists k | 0 <= k < |exts| :: HasSuffix(s, exts[k])
  }

  predicate ContainsAny(s: string, subs: seq<string>) {
    exists k | 0 <= k < |subs| :: Contains(s, subs[k])
  }

  /** The .docx test: an image extension at the end, or an image host anywhere (case-insensitively). */
  predicate IsDocxImage(url: string) {
    EndsWithAny(Lower(url), DocxImageExts) || ContainsAny(Lower(url), ImageHosts)
  }

  /** The .pdf test: an image extension at the end. */
  predicate IsPdfImage(url: string) {
    EndsWithAny(Lower(url), PdfImageExts)
  }

  /** Every URL the .pdf filter keeps, the .docx filter keeps too. */
  lemma PdfImageIsDocxImage(url: string)
    requires IsPdfImage(url)
    ensures IsDocxImage(url)
  {
    var k :| 0 <= k < |PdfImageExts| && HasSuffix(Lower(url), PdfImageExts[k]);
    assert DocxImageExts[k] == PdfImageExts[k];
  }

  /** Both image tests look at the lower-cased URL only, so they ignore case. */
  lemma ImageTestsIgnoreCase(url: string)
    ensures IsDocxImage(Lower(url)) == IsDocxImage(url)
    ensures IsPdfImage(Lower(url)) == IsPdfImage(url)
  {
    LowerIdempotent(url);
  }

  /** The .pdf test is strictly narrower than the .docx one: it knows no `.bmp`
      and no image hosts. */
  lemma PdfImageTestIsNarrower()
    ensures IsDocxImage("https://x.org/a.BMP") && !IsPdfImage("https://x.org/a.BMP")
    ensures IsDocxImage("https://i.imgur.com/a") && !IsPdfImage("https://i.imgur.com/a")
  {
    BmpIsDocxImageOnly();
    HostIsDocxImageOnly();
  }

  lemma BmpIsDocxImageOnly()
    ensures IsDocxImage("https://x.org/a.BMP") && !IsPdfImage("https://x.org/a.BMP")
  {
    var b := Lower("https://x.org/a.BMP");
    assert b == "https://x.org/a.bmp";
    assert HasSuffix(b, DocxImageExts[6]);
    forall k | 0 <= k < |PdfImageExts| ensures !HasSuffix(b, PdfImageExts[k]) {
      assert b[|b| - 1] == 'p';
    }
  }

  lemma HostIsDocxImageOnly()
    ensures IsDocxImage("https://i.imgur.com/a") && !IsPdfImage("https://i.imgur.com/a")
  {
    var h := Lower("https://i.imgur.com/a");
    assert h == "https://i.imgur.com/a";
    assert OccursAt(h, ImageHosts[0], 10);
    forall k | 0 <= k < |PdfImageExts| ensures !HasSuffix(h, PdfImageExts[k]) {
      assert h[|h| - 2] == '/';
    }
  }

  /** The .docx filter: image URLs, each kept once. */
  function DocxImageUrls(urls: seq<string>): (r: seq<string>)
    ensures forall i, j :: 0 <= i < j < |r| ==> r[i] != r[j]
    ensures forall u :: u in r <==> u in urls && IsDocxImage(u)
  {
    if |urls| == 0 then []
    else
      var p := urls[..|urls| - 1];
      var last := urls[|urls| - 1];
      var r := DocxImageUrls(p);
      assert urls == p + [last];
      if IsDocxImage(last) && last !in r then r + [last] else r
  }

  /** The .docx filter keeps the URLs in order of first appearance: what it
      returns for any prefix of the list is a prefix of what it returns for the
      whole list, so a URL first seen earlier is listed earlier. */
  lemma {:induction false} DocxImageUrlsExtendsPrefix(urls: seq<string>, n: nat)
    requires n <= |urls|
    ensures HasPrefix(DocxImageUrls(urls), DocxImageUrls(urls[..n]))
    decreases |urls| - n
  {
    if n < |urls| {
      var p := urls[..|urls| - 1];
      assert p[..n] == urls[..n];
      DocxImageUrlsExtendsPrefix(p, n);
      var pre := DocxImageUrls(urls[..n]);
      var r := DocxImageUrls(p);
      var out := DocxImageUrls(urls);
      assert out == r || out == r + [urls[|urls| - 1]];
      assert out[..|pre|] == r[..|pre|];
    } else {
      assert urls[..n] == urls;
    }
  }

  /** The .pdf filter: a plain list comprehension, duplicates included. */
  function PdfImageUrls(urls: seq<string>): (r: seq<string>)
    ensures forall i :: 0 <= i < |r| ==> IsPdfImage(r[i])
    ensures forall x :: multiset(r)[x] == if IsPdfImage(x) then multiset(urls)[x] else 0
  {
    if |urls| == 0 then []
    else
      var p := urls[..|urls| - 1];
      var last := urls[|urls| - 1];
      assert urls == p + [last];
      var r := PdfImageUrls(p);
      if IsPdfImage(last) then r + [last] else r
  }

  /** Every URL the .pdf filter keeps is one of the URLs found, and one the .docx test accepts. */
  lemma PdfImageUrlsAreFound(urls: seq<string>)
    ensures forall i :: 0 <= i < |PdfImageUrls(urls)| ==>
              PdfImageUrls(urls)[i] in urls && IsDocxImage(PdfImageUrls(urls)[i])
  {
    var r := PdfImageUrls(urls);
    forall i | 0 <= i < |r| ensures r[i] in urls && IsDocxImage(r[i]) {
      assert r[i] in multiset(r);
      PdfImageIsDocxImage(r[i]);
    }
  }

  /** The .pdf filter keeps the input's order: filtering a concatenation is
      concatenating the filtered parts. */
  lemma {:induction false} PdfImageUrlsAppend(a: seq<string>, b: seq<string>)
    ensures PdfImageUrls(a + b) == PdfImageUrls(a) + PdfImageUrls(b)
    decreases |b|
  {
    if |b| == 0 {
      assert a + b == a;
    } else {
      var b' := b[..|b| - 1];
      var x := b[|b| - 1];
      assert (a + b)[..|a + b| - 1] == a + b';
      assert (a + b)[|a + b| - 1] == x;
      PdfImageUrlsAppend(a, b');
    }
  }

  // ---------------------------------------------------------------------------
  // The image section
  // ---------------------------------------------------------------------------

  /** `"\n\n---\n\n# 图片资源\n"` ("image resources"). */
  const ImageHeader: string := "\n\n---\n\n# \U{56FE}\U{7247}\U{8D44}\U{6E90}\n"
  const MaxImages: nat := 20

  /** Each URL followed by a newline. */
  function Lines(us: seq<string>): string {
    if |us| == 0 then "" else us[0] + "\n" + Lines(us[1..])
  }

  /** The text appended when image URLs were found: the header, then the first 20 URLs. */
  function ImageSection(urls: seq<string>): string {
    ImageHeader + Lines(urls[..Min(|urls|, MaxImages)])
  }

  predicate NoNewline(u: string) {
    forall k :: 0 <= k < |u| ==> u[k] != '\n'
  }

  /** Position of the first newline at or after `j`, or `|s|`. */
  function NewlineFrom(s: string, j: nat): (i: nat)
    requires j <= |s|
    decreases |s| - j
    ensures j <= i <= |s|
    ensures forall k :: j <= k < i ==> s[k] != '\n'
    ensures i < |s| ==> s[i] == '\n'
  {
    if j == |s| || s[j] == '\n' then j else NewlineFrom(s, j + 1)
  }

  /** Reads newline-terminated lines back (a trailing unterminated piece is a last line). */
  function SplitLines(s: string): seq<string>
    decreases |s|
  {
    if |s| == 0 then []
    else
      var i := NewlineFrom(s, 0);
      if i == |s| then [s] else [s[..i]] + SplitLines(s[i + 1..])
  }

  /** The image section reads back as its header followed by the first 20 URLs,
      one per line. */
  lemma ImageSectionReadsBack(urls: seq<string>)
    requires forall i :: 0 <= i < |urls| ==> NoNewline(urls[i])
    ensures HasPrefix(ImageSection(urls), ImageHeader)
    ensures SplitLines(ImageSection(urls)[|ImageHeader|..]) == urls[..Min(|urls|, MaxImages)]
  {
    var shown := urls[..Min(|urls|, MaxImages)];
    SplitConcat(ImageHeader, Lines(shown));
    LinesRoundTrip(shown);
  }

  /** A newline-free line and its newline split off as the first line. */
  lemma FirstLineSplits(u: string, rest: string)
    requires NoNewline(u)
    ensures SplitLines(u + "\n" + rest) == [u] + SplitLines(rest)
  {
    var s := u + "\n" + rest;
    assert forall k :: 0 <= k < |u| ==> s[k] == u[k];
    assert s[|u|] == '\n';
    assert NewlineFrom(s, 0) == |u|;
    assert s[..|u|] == u;
    assert s[|u| + 1..] == rest;
  }

  /** The image lines read back as exactly the URLs written, in order. */
  lemma {:induction false} LinesRoundTrip(us: seq<string>)
    requires forall i :: 0 <= i < |us| ==> NoNewline(us[i])
    ensures SplitLines(Lines(us)) == us
  {
    if |us| > 0 {
      FirstLineSplits(us[0], Lines(us[1..]));
      LinesRoundTrip(us[1..]);
      assert [us[0]] + us[1..] == us;
    }
  }

  /** Each listed URL occurs verbatim in the lines. */
  lemma {:induction false} UrlInLines(us: seq<string>, i: nat)
    requires i < |us|
    ensures exists k :: OccursAt(Lines(us), us[i], k)
  {
    if i == 0 {
      OccursInConcat([], us[0], "\n" + Lines(us[1..]));
      assert [] + us[0] + ("\n" + Lines(us[1..])) == Lines(us);
    } else {
      UrlInLines(us[1..], i - 1);
      var k :| OccursAt(Lines(us[1..]), us[1..][i - 1], k);
      var pre := us[0] + "\n";
      assert Lines(us) == pre + Lines(us[1..]);
      OccursShift(pre, Lines(us[1..]), us[i], k);
    }
  }

  // ---------------------------------------------------------------------------
  // Assembly
  // ---------------------------------------------------------------------------

  /** The length cap on the input text (about 100,000 tokens at 4 characters each). */
  const MaxInputChars: nat := 400000

  function Truncate(s: string): (r: string)
    ensures |r| <= MaxInputChars
    ensures HasPrefix(s, r)
    ensures |s| <= MaxInputChars ==> r == s
    ensures |s| > MaxInputChars ==> |r| == MaxInputChars
  {
    if |s| > MaxInputChars then s[..MaxInputChars] else s
  }

  /** The text sent as `inputText` and the `has_image_urls` flag. */
  datatype Assembled = Assembled(inputText: string, hasImageUrls: bool)

  /** The text before truncation: the extracted text, plus the image section when there are images. */
  function WithImages(text: string, imageUrls: seq<string>): string {
    if |imageUrls| > 0 then text + ImageSection(imageUrls) else text
  }

  function AssembleInput(text: string, imageUrls: seq<string>): (a: Assembled)
    ensures a.hasImageUrls <==> |imageUrls| > 0
    ensures |a.inputText| <= MaxInputChars
    ensures HasPrefix(WithImages(text, imageUrls), a.inputText)
    ensures |WithImages(text, imageUrls)| <= MaxInputChars ==> a.inputText == WithImages(text, imageUrls)
    ensures |WithImages(text, imageUrls)| > MaxInputChars ==> |a.inputText| == MaxInputChars
    ensures HasPrefix(text, a.inputText) || HasPrefix(a.inputText, text)
  {
    Assembled(Truncate(WithImages(text, imageUrls)), |imageUrls| > 0)
  }

  /** When nothing is cut, the assembled text is the extracted text, the header and
      then exactly the first min(n, 20) image URLs, one per line. */
  lemma SectionListsFirstUrls(text: string, imageUrls: seq<string>)
    requires |imageUrls| > 0
    requires forall i :: 0 <= i < |imageUrls| ==> NoNewline(imageUrls[i])
    requires |text| + |ImageSection(imageUrls)| <= MaxInputChars
    ensures var t := AssembleInput(text, imageUrls).inputText;
            && HasPrefix(t, text + ImageHeader)
            && SplitLines(t[|text| + |ImageHeader|..]) == imageUrls[..Min(|imageUrls|, MaxImages)]
  {
    var shown := imageUrls[..Min(|imageUrls|, MaxImages)];
    var pre := text + ImageHeader;
    var t := AssembleInput(text, imageUrls).inputText;
    assert t == WithImages(text, imageUrls);
    assert t == pre + Lines(shown);
    SplitConcat(pre, Lines(shown));
    LinesRoundTrip(shown);
  }

  /** When nothing is cut, every one of the first 20 image URLs appears verbatim in the input text. */
  lemma ImageUrlsAppearVerbatim(text: string, imageUrls: seq<string>, i: nat)
    requires i < |imageUrls| && i < MaxImages
    requires |text| + |ImageSection(imageUrls)| <= MaxInputChars
    ensures Contains(AssembleInput(text, imageUrls).inputText, imageUrls[i])
  {
    var shown := imageUrls[..Min(|imageUrls|, MaxImages)];
    var pre := text + ImageHeader;
    var t := AssembleInput(text, imageUrls).inputText;
    assert t == WithImages(text, imageUrls);
    assert t == pre + Lines(shown);
    UrlInLines(shown, i);
    var k :| OccursAt(Lines(shown), shown[i], k);
    OccursShift(pre, Lines(shown), shown[i], k);
    assert shown[i] == imageUrls[i];
  }

  const BaseInstructions: string := "Make the presentation professional and engaging"
  const ImageInstructions: string :=
    ". Please include and use the image URLs provided in the input text. Display images appropriately in the presentation slides."

  /** The `additional_instructions` sent with the request. */
  function AdditionalInstructions(hasImageUrls: bool): (r: string)
    ensures HasPrefix(r, BaseInstructions)
    ensures hasImageUrls <==> |r| > |BaseInstructions|
  {
    if hasImageUrls then BaseInstructions + ImageInstructions else BaseInstructions
  }
}

=== FILE: ledger.dfy ===
/** The generation ledger: the idempotency record kept in `generation_records.json`,
    a JSON object mapping each generation id to the record of one submitted job.

    The file is loaded into a Python dict, whose iteration order (the order of
    the keys in the file, i.e. insertion order) decides which record the dedup
    lookup returns first.  The model therefore keeps the key order next to the map.
    Loading and saving are not modelled as I/O: each operation takes the
    current ledger and returns the ledger that `save_records` writes, given the
    boolean outcome of that write. */
module Ledger {
  import opened Common

  /** One record, with the fields `add_generation_record` writes plus the two
      download fields that `update_generation_record` adds later (`None` = key absent). */
  datatype Record = Record(
    filePath: string,
    fileName: string,
    fileHash: string,
    generationId: string,
    gammaUrl: string,
    status: string,
    createdAt: string,
    updatedAt: string,
    pdfDownloaded: Option<bool>,
    pdfPath: Option<string>)

  /** `order` lists the keys of `records` in dict order. */
  datatype Ledger = Ledger(order: seq<string>, records: map<string, Record>)

  /** The representation invariant: `order` enumerates the keys exactly once each. */
  predicate Valid(l: Ledger) {
    && (forall i, j :: 0 <= i < j < |l.order| ==> l.order[i] != l.order[j])
    && (forall i :: 0 <= i < |l.order| ==> l.order[i] in l.records)
    && (forall id :: id in l.records ==> id in l.order)
  }

  /** The outcome of a ledger write: the function's boolean result and the persisted ledger. */
  datatype Saved = Saved(ok: bool, ledger: Ledger)

  /** The fields a caller of `update_generation_record` may supply as keyword
      arguments; `None` means the keyword was not passed. */
  datatype Patch = Patch(
    filePath: Option<string>,
    fileName: Option<string>,
    fileHash: Option<string>,
    generationId: Option<string>,
    gammaUrl: Option<string>,
    status: Option<string>,
    pdfDownloaded: Option<bool>,
    pdfPath: Option<string>)

  /** The patch `process_file` applies after an export attempt. */
  function DownloadPatch(downloaded: bool, path: string): Patch {
    Patch(None, None, None, None, None, None, Some(downloaded),
          if downloaded then Some(path) else None)
  }

  /** The dedup test of `check_existing_generation`: same resolved path or same content hash. */
  predicate Matches(r: Record, path: string, hash: string) {
    r.filePath == path || r.fileHash == hash
  }

  predicate MatchesAt(l: Ledger, i: int, path: string, hash: string)
    requires Valid(l)
  {
    0 <= i < |l.order| && Matches(l.records[l.order[i]], path, hash)
  }

  /** `get_file_hash` failed (returned `None`) or produced a falsy digest. */
  predicate HashFailed(hash: Option<string>) {
    !Truthy(hash)
  }

  /** Position, at or after `from`, of the first record in dict order that matches. */
  function FirstMatch(l: Ledger, path: string, hash: string, from: nat): (r: Option<nat>)
    requires Valid(l)
    requires from <= |l.order|
    decreases |l.order| - from
    ensures r.Some? ==> from <= r.value && MatchesAt(l, r.value, path, hash)
    ensures forall i :: from <= i < |l.order| && MatchesAt(l, i, path, hash) ==>
              r.Some? && r.value <= i
  {
    if from == |l.order| then None
    else if Matches(l.records[l.order[from]], path, hash) then Some(from)
    else FirstMatch(l, path, hash, from + 1)
  }

  /** `check_existing_generation`: the first record (in dict order) whose path or
      hash matches; a failed hash disables the lookup altogether. */
  function CheckExisting(l: Ledger, path: string, hash: Option<string>): (r: Option<Record>)
    requires Valid(l)
    ensures HashFailed(hash) ==> r.None?
    ensures r.Some? ==> exists i :: MatchesAt(l, i, path, hash.value) && r.value == l.records[l.order[i]]
                                    && forall j :: 0 <= j < i ==> !MatchesAt(l, j, path, hash.value)
    ensures !HashFailed(hash) && r.None? ==>
              forall id :: id in l.records ==> !Matches(l.records[id], path, hash.value)
  {
    if HashFailed(hash) then None
    else
      match FirstMatch(l, path, hash.value, 0)
      case None =>
        NoFirstMatchMeansNone(l, path, hash.value);
        None
      case Some(i) => Some(l.records[l.order[i]])
  }

  lemma NoFirstMatchMeansNone(l: Ledger, path: string, hash: string)
    requires Valid(l)
    requires FirstMatch(l, path, hash, 0).None?
    ensures forall id :: id in l.records ==> !Matches(l.records[id], path, hash)
  {
    forall id | id in l.records
      ensures !Matches(l.records[id], path, hash)
    {
      var i :| 0 <= i < |l.order| && l.order[i] == id;
      assert !MatchesAt(l, i, path, hash);
    }
  }

  /** The record `add_generation_record` builds. */
  function NewRecord(path: string, name: string, hash: string, id: string, url: string,
                     status: string, now: string): Record
  {
    Record(path, name, hash, id, url, status, now, now, None, None)
  }

  /** Python's `records[key] = value`: an existing key keeps its position, a new one goes last. */
  function Put(l: Ledger, id: string, r: Record): (l': Ledger)
    requires Valid(l)
    ensures Valid(l')
    ensures l'.records == l.records[id := r]
    ensures id in l.records ==> l'.order == l.order
    ensures id !in l.records ==> l'.order == l.order + [id]
  {
    if id in l.records then Ledger(l.order, l.records[id := r])
    else Ledger(l.order + [id], l.records[id := r])
  }

  /** `add_generation_record`: insert, or overwrite, the record for `id`. */
  function AddRecord(l: Ledger, path: string, name: string, hash: Option<string>, id: string,
                     url: string, status: string, now: string, saved: bool): (s: Saved)
    requires Valid(l)
    ensures Valid(s.ledger)
    ensures HashFailed(hash) ==> !s.ok && s.ledger == l
    ensures !HashFailed(hash) && !saved ==> !s.ok && s.ledger == l
    ensures !HashFailed(hash) && saved ==> s.ok
    ensures KeepsOthers(l, s.ledger, id)
    ensures s.ok ==>
              && s.ledger.records.Keys == l.records.Keys + {id}
              && (forall k :: k in l.records && k != id ==> s.ledger.records[k] == l.records[k])
              && s.ledger.records[id].filePath == path
              && s.ledger.records[id].fileName == name
              && s.ledger.records[id].fileHash == hash.value
              && s.ledger.records[id].generationId == id
              && s.ledger.records[id].gammaUrl == url
              && s.ledger.records[id].status == status
              && s.ledger.records[id].createdAt == now == s.ledger.records[id].updatedAt
              && s.ledger.records[id].pdfDownloaded.None?
              && s.ledger.records[id].pdfPath.None?
              && (id in l.records ==> s.ledger.order == l.order)
              && (id !in l.records ==> s.ledger.order == l.order + [id])
  {
    if HashFailed(hash) then Saved(false, l)
    else
      var l' := Put(l, id, NewRecord(path, name, hash.value, id, url, status, now));
      if saved then Saved(true, l') else Saved(false, l)
  }

  /** `dict.update(kwargs)` on one record followed by the `updated_at` refresh. */
  function ApplyPatch(r: Record, p: Patch, now: string): Record {
    r.(filePath := p.filePath.GetOr(r.filePath),
       fileName := p.fileName.GetOr(r.fileName),
       fileHash := p.fileHash.GetOr(r.fileHash),
       generationId := p.generationId.GetOr(r.generationId),
       gammaUrl := p.gammaUrl.GetOr(r.gammaUrl),
       status := p.status.GetOr(r.status),
       pdfDownloaded := if p.pdfDownloaded.Some? then p.pdfDownloaded else r.pdfDownloaded,
       pdfPath := if p.pdfPath.Some? then p.pdfPath else r.pdfPath,
       updatedAt := now)
  }

  /** Applying the same patch twice is applying it once, and an empty patch only
      refreshes `updated_at`. */
  lemma ApplyPatchIdempotent(r: Record, p: Patch, now: string)
    ensures ApplyPatch(ApplyPatch(r, p, now), p, now) == ApplyPatch(r, p, now)
    ensures ApplyPatch(r, Patch(None, None, None, None, None, None, None, None), now) == r.(updatedAt := now)
  {
  }

  /** `update_generation_record`: merge the supplied fields into an existing record. */
  function UpdateRecord(l: Ledger, id: string, p: Patch, now: string, saved: bool): (s: Saved)
    requires Valid(l)
    ensures Valid(s.ledger)
    ensures id !in l.records ==> !s.ok && s.ledger == l
    ensures id in l.records ==> s.ok == saved
    ensures !s.ok ==> s.ledger == l
    ensures KeepsOthers(l, s.ledger, id)
    ensures s.ok ==>
              && s.ledger.order == l.order
              && s.ledger.records.Keys == l.records.Keys
              && (forall k :: k in l.records && k != id ==> s.ledger.records[k] == l.records[k])
              && s.ledger.records[id].createdAt == l.records[id].createdAt
              && s.ledger.records[id].updatedAt == now
              && s.ledger.records[id].filePath == p.filePath.GetOr(l.records[id].filePath)
              && s.ledger.records[id].fileName == p.fileName.GetOr(l.records[id].fileName)
              && s.ledger.records[id].fileHash == p.fileHash.GetOr(l.records[id].fileHash)
              && s.ledger.records[id].generationId == p.generationId.GetOr(l.records[id].generationId)
              && s.ledger.records[id].gammaUrl == p.gammaUrl.GetOr(l.records[id].gammaUrl)
              && s.ledger.records[id].status == p.status.GetOr(l.records[id].status)
              && (p.pdfDownloaded.None? ==> s.ledger.records[id].pdfDownloaded == l.records[id].pdfDownloaded)
              && (p.pdfDownloaded.Some? ==> s.ledger.records[id].pdfDownloaded == p.pdfDownloaded)
              && (p.pdfPath.None? ==> s.ledger.records[id].pdfPath == l.records[id].pdfPath)
              && (p.pdfPath.Some? ==> s.ledger.records[id].pdfPath == p.pdfPath)
  {
    if id in l.records && saved then Saved(true, Ledger(l.order, l.records[id := ApplyPatch(l.records[id], p, now)]))
    else Saved(false, l)
  }

  /** A patch that leaves the two dedup keys alone. */
  predicate KeepsDedupKeys(p: Patch) {
    p.filePath.None? && p.fileHash.None?
  }

  /** `l'` keeps every generation id of `l`, and every record except the one under `id`. */
  predicate KeepsOthers(l: Ledger, l': Ledger, id: string) {
    && l.records.Keys <= l'.records.Keys
    && (forall k :: k in l.records && k != id ==> l'.records[k] == l.records[k])
  }

  lemma KeepsOthersTrans(l: Ledger, l': Ledger, l'': Ledger, id: string)
    requires KeepsOthers(l, l', id) && KeepsOthers(l', l'', id)
    ensures KeepsOthers(l, l'', id)
  {
  }

  /** After a successful insert, the dedup lookup for the same file finds a record. */
  lemma AddThenFound(l: Ledger, path: string, name: string, hash: Option<string>, id: string,
                     url: string, status: string, now: string)
    requires Valid(l)
    requires !HashFailed(hash)
    ensures var s := AddRecord(l, path, name, hash, id, url, status, now, true);
            CheckExisting(s.ledger, path, hash).Some?
  {
    var s := AddRecord(l, path, name, hash, id, url, status, now, true);
    assert Matches(s.ledger.records[id], path, hash.value);
  }

  /** Which position the lookup settles on is the same in two ledgers that agree,
      position by position, on whether each record matches. */
  lemma {:induction false} FirstMatchAgrees(l: Ledger, l': Ledger, path: string, hash: string, from: nat)
    requires Valid(l) && Valid(l')
    requires from <= |l.order| && l.order == l'.order
    requires forall i :: from <= i < |l.order| ==> (MatchesAt(l, i, path, hash) <==> MatchesAt(l', i, path, hash))
    ensures FirstMatch(l, path, hash, from) == FirstMatch(l', path, hash, from)
    decreases |l.order| - from
  {
    if from < |l.order| {
      assert MatchesAt(l, from, path, hash) <==> MatchesAt(l', from, path, hash);
      FirstMatchAgrees(l, l', path, hash, from + 1);
    }
  }

  /** Recording a download outcome never changes which generation the dedup lookup
      resolves a file to: a patch that does not touch `file_path` or `file_hash`
      leaves the lookup's answer at the same generation id. */
  lemma UpdatePreservesLookup(l: Ledger, id: string, p: Patch, now: string, saved: bool,
                              path: string, hash: Option<string>)
    requires Valid(l)
    requires KeepsDedupKeys(p)
    ensures var l' := UpdateRecord(l, id, p, now, saved).ledger;
            && CheckExisting(l', path, hash).Some? == CheckExisting(l, path, hash).Some?
            && (CheckExisting(l, path, hash).Some? && !HashFailed(hash) ==>
                 FirstMatch(l', path, hash.value, 0) == FirstMatch(l, path, hash.value, 0))
  {
    var l' := UpdateRecord(l, id, p, now, saved).ledger;
    if !HashFailed(hash) {
      forall i | 0 <= i < |l.order|
        ensures MatchesAt(l, i, path, hash.value) <==> MatchesAt(l', i, path, hash.value)
      {
        var k := l.order[i];
        if k == id {
          assert l'.records[k].filePath == l.records[k].filePath;
          assert l'.records[k].fileHash == l.records[k].fileHash;
        }
      }
      FirstMatchAgrees(l, l', path, hash.value, 0);
    }
  }

  /** Every record carries a usable `gamma_url`; `process_file` only ever stores such records. */
  predicate AllHaveUrl(l: Ledger) {
    forall id :: id in l.records ==> l.records[id].gammaUrl != ""
  }

  lemma AddKeepsUrls(l: Ledger, path: string, name: string, hash: Option<string>, id: string,
                     url: string, status: string, now: string, saved: bool)
    requires Valid(l) && AllHaveUrl(l) && url != ""
    ensures AllHaveUrl(AddRecord(l, path, name, hash, id, url, status, now, saved).ledger)
  {
  }

  lemma UpdateKeepsUrls(l: Ledger, id: string, p: Patch, now: string, saved: bool)
    requires Valid(l) && AllHaveUrl(l)
    requires p.gammaUrl.None? || p.gammaUrl.value != ""
    ensures AllHaveUrl(UpdateRecord(l, id, p, now, saved).ledger)
  {
  }
}

=== FILE: orchestrator.dfy ===
/** `process_file`: the per-file pipeline.  Dedup lookup in the ledger, and on a
    hit with a Gamma URL the skip path (export only if the output file is
    missing); otherwise input assembly, submission, polling, recording the
    generation, export and recording the export outcome.

    Everything the pipeline learns from outside is a field of `Env`: file-system
    facts, the extractor's output, configuration, the remote service's replies,
    the clock and the outcomes of ledger writes. */
module Orchestrator {
  import opened Common
  import opened Ledger
  import opened Polling
  import opened Export
  import opened Input
  import opened Submission

  datatype FileKind = Docx | Pdf | Unsupported

  datatype Env = Env(
    fileExists: bool,
    resolvedPath: string,       // str(Path(input_file_path).resolve())
    fileName: string,           // Path(input_file_path).name
    stem: string,               // input_path.stem
    kind: FileKind,             // from the lower-cased suffix
    lookupHash: Option<string>, // get_file_hash inside check_existing_generation
    recordHash: Option<string>, // get_file_hash inside add_generation_record
    outputExists: bool,         // output_path.exists()
    extractedText: Option<string>,
    foundUrls: seq<string>,     // the http(s) URLs the regex finds in the text, in order
    apiKey: Option<string>,
    themeId: Option<string>,
    submitCode: int,
    submitGenerationId: Option<string>,
    poll: nat -> PollResult,
    lag: nat -> nat,
    fetch: string -> Response,
    seleniumAvailable: bool,
    browserOk: bool,
    useBrowserExport: bool,     // USE_BROWSER_EXPORT == "true"
    addedAt: string,            // datetime.now() inside add_generation_record
    updatedAt: string,          // datetime.now() inside update_generation_record, after the export
    addSaved: bool,             // outcome of the save in add_generation_record
    updateSaved: bool)          // outcome of the save in update_generation_record

  /** What one call did: its boolean result, the ledger it leaves, the request it
      built, whether the request was posted, the outcome of `wait_for_completion`
      if polling ran, whether `add_generation_record` succeeded, and the export
      chain's outcome if the chain ran. */
  datatype Run = Run(
    ok: bool,
    ledger: Ledger,
    request: Option<Request>,
    submitted: bool,
    waited: Option<Waited>,
    recorded: bool,
    exported: Option<Exported>)

  const MaxWaitTime: int := 300
  const CheckInterval: int := 5

  function OutputPath(stem: string): string {
    "output/" + stem + "_gamma_presentation.pdf"
  }

  /** The image URLs `process_file` ends up with for the file's kind. */
  function ImageUrlsOf(env: Env): (r: seq<string>)
    ensures forall i :: 0 <= i < |r| ==> r[i] in env.foundUrls && IsDocxImage(r[i])
    ensures env.kind.Pdf? ==> forall i :: 0 <= i < |r| ==> IsPdfImage(r[i])
    ensures env.kind.Docx? && env.extractedText.Some? ==> forall u :: u in env.foundUrls && IsDocxImage(u) ==> u in r
    ensures env.kind.Unsupported? ==> r == []
  {
    match env.kind
    case Docx => if env.extractedText.Some? then DocxImageUrls(env.foundUrls) else []
    case Pdf =>
      if Truthy(env.extractedText) then
        PdfImageUrlsAreFound(env.foundUrls);
        PdfImageUrls(env.foundUrls)
      else []
    case Unsupported => []
  }

  /** A record exists for this file by path or by hash. */
  predicate Known(l: Ledger, path: string, hash: string) {
    exists id :: id in l.records && Matches(l.records[id], path, hash)
  }

  /** The first record in dict order that matches this file carries a Gamma URL. */
  predicate FirstMatchCarriesUrl(l: Ledger, path: string, hash: string)
    requires Valid(l)
  {
    forall i :: 0 <= i < |l.order| && MatchesAt(l, i, path, hash) && (forall j :: 0 <= j < i ==> !MatchesAt(l, j, path, hash)) ==>
      l.records[l.order[i]].gammaUrl != ""
  }

  /** The ledger holds a record for this very file: same path and same hash. */
  predicate HoldsFile(l: Ledger, path: string, hash: string) {
    exists id :: id in l.records && l.records[id].filePath == path && l.records[id].fileHash == hash
  }

  /** The two ledger writes around the export: `add_generation_record` before it
      and `update_generation_record` with its outcome after it.  The export does
      not read the ledger, so its outcome can be passed in. */
  function RecordGeneration(env: Env, l: Ledger, id: string, url: string, downloaded: bool): (s: Saved)
    requires Valid(l)
    ensures Valid(s.ledger)
    ensures s.ok <==> !HashFailed(env.recordHash) && env.addSaved
    ensures KeepsOthers(l, s.ledger, id)
    ensures url != "" && AllHaveUrl(l) ==> AllHaveUrl(s.ledger)
    ensures s.ok ==> HoldsFile(s.ledger, env.resolvedPath, env.recordHash.value)
    ensures s.ok ==>
              && id in s.ledger.records
              && s.ledger.records[id].generationId == id
              && s.ledger.records[id].gammaUrl == url
              && s.ledger.records[id].status == "completed"
              && s.ledger.records[id].filePath == env.resolvedPath
              && s.ledger.records[id].fileName == env.fileName
              && s.ledger.records[id].fileHash == env.recordHash.value
              && s.ledger.records[id].createdAt == env.addedAt
    ensures s.ok && env.updateSaved ==>
              && s.ledger.records[id].pdfDownloaded == Some(downloaded)
              && (downloaded ==> s.ledger.records[id].pdfPath == Some(OutputPath(env.stem)))
              && s.ledger.records[id].updatedAt == env.updatedAt
    ensures s.ok && !env.updateSaved ==>
              s.ledger.records[id].pdfDownloaded.None? && s.ledger.records[id].updatedAt == env.addedAt
  {
    var added := AddRecord(l, env.resolvedPath, env.fileName, env.recordHash, id, url,
                           "completed", env.addedAt, env.addSaved);
    var patch := DownloadPatch(downloaded, OutputPath(env.stem));
    var updated := UpdateRecord(added.ledger, id, patch, env.updatedAt, env.updateSaved);
    assert url != "" && AllHaveUrl(l) ==> AllHaveUrl(updated.ledger) by {
      if url != "" && AllHaveUrl(l) {
        AddKeepsUrls(l, env.resolvedPath, env.fileName, env.recordHash, id, url, "completed", env.addedAt, env.addSaved);
        UpdateKeepsUrls(added.ledger, id, patch, env.updatedAt, env.updateSaved);
      }
    }
    assert KeepsOthers(l, updated.ledger, id) by {
      KeepsOthersTrans(l, added.ledger, updated.ledger, id);
    }
    assert added.ok ==> HoldsFile(updated.ledger, env.resolvedPath, env.recordHash.value) by {
      if added.ok {
        assert updated.ledger.records[id].filePath == env.resolvedPath;
      }
    }
    Saved(added.ok, updated.ledger)
  }

  /** After a completed generation: record it, export, record the export outcome. */
  function Finish(env: Env, l: Ledger, req: Request, w: Waited, id: string, url: string): (r: Run)
    requires Valid(l)
    ensures Valid(r.ledger)
    ensures r.submitted && r.exported.Some? && r.request == Some(req) && r.waited == Some(w)
    ensures r.ok == r.exported.value.ok
    ensures url != "" && AllHaveUrl(l) ==> AllHaveUrl(r.ledger)
    ensures r.recorded <==> !HashFailed(env.recordHash) && env.addSaved
    ensures r.recorded ==> HoldsFile(r.ledger, env.resolvedPath, env.recordHash.value)
    ensures r.exported.value == DownloadPdf(url, id, env.useBrowserExport, env.seleniumAvailable,
                                            env.fetch, env.browserOk)
    ensures r.recorded ==>
              && id in r.ledger.records
              && r.ledger.records[id].generationId == id
              && r.ledger.records[id].gammaUrl == url
              && r.ledger.records[id].status == "completed"
              && r.ledger.records[id].filePath == env.resolvedPath
              && r.ledger.records[id].fileName == env.fileName
              && r.ledger.records[id].fileHash == env.recordHash.value
              && r.ledger.records[id].createdAt == env.addedAt
    ensures r.recorded && env.updateSaved ==>
              && r.ledger.records[id].pdfDownloaded == Some(r.ok)
              && (r.ok ==> r.ledger.records[id].pdfPath == Some(OutputPath(env.stem)))
              && r.ledger.records[id].updatedAt == env.updatedAt
    ensures r.recorded && !env.updateSaved ==>
              r.ledger.records[id].pdfDownloaded.None? && r.ledger.records[id].updatedAt == env.addedAt
    ensures KeepsOthers(l, r.ledger, id)
  {
    var e := DownloadPdf(url, id, env.useBrowserExport, env.seleniumAvailable,
                         env.fetch, env.browserOk);
    var s := RecordGeneration(env, l, id, url, e.ok);
    Run(e.ok, s.ledger, Some(req), true, Some(w), s.ok, Some(e))
  }

  /** The request `process_file` posts, if the file kind is supported and the
      extracted text is not blank. */
  function RequestFor(env: Env): (q: Option<Request>)
    ensures q.Some? <==> !env.kind.Unsupported? && Truthy(env.extractedText) && !IsBlank(env.extractedText.value)
    ensures q.Some? ==>
              q.value.inputText == AssembleInput(env.extractedText.value, ImageUrlsOf(env)).inputText
    ensures q.Some? ==>
              && (q.value.imageOptions.source == "noImages" <==> |ImageUrlsOf(env)| > 0)
              && (q.value.imageOptions.model.Some? <==> |ImageUrlsOf(env)| == 0)
              && q.value.additionalInstructions == Some(AdditionalInstructions(|ImageUrlsOf(env)| > 0))
              && q.value.themeId == (if Truthy(env.themeId) then env.themeId else None)
              && q.value.numCards.None?
  {
    if env.kind.Unsupported? then None
    else
      var text := env.extractedText;
      if !Truthy(text) || IsBlank(text.value) then None
      else
        var urls := ImageUrlsOf(env);
        var a := AssembleInput(text.value, urls);
        Some(BuildRequest(a.inputText, env.themeId, None, Some(AdditionalInstructions(|urls| > 0)), a.hasImageUrls))
  }

  /** After the job was created: wait for it, pick its Gamma URL, and finish. */
  function Complete(env: Env, l: Ledger, req: Request, id: string): (r: Run)
    requires Valid(l)
    ensures Valid(r.ledger)
    ensures r.submitted && r.request == Some(req)
    ensures r.waited == Some(Await(env.poll, env.lag, MaxWaitTime, CheckInterval))
    ensures r.exported.Some? <==> r.waited.value.success && SelectGammaUrl(r.waited.value.result.value).Some?
    ensures r.exported.Some? ==>
              r.exported.value == DownloadPdf(SelectGammaUrl(r.waited.value.result.value).value, id,
                                              env.useBrowserExport, env.seleniumAvailable, env.fetch, env.browserOk)
    ensures r.recorded <==> r.exported.Some? && !HashFailed(env.recordHash) && env.addSaved
    ensures r.recorded ==>
              && id in r.ledger.records
              && r.ledger.records[id].generationId == id
              && r.ledger.records[id].gammaUrl == SelectGammaUrl(r.waited.value.result.value).value
              && r.ledger.records[id].status == "completed"
    ensures r.recorded ==> !HashFailed(env.recordHash) && HoldsFile(r.ledger, env.resolvedPath, env.recordHash.value)
    ensures !r.recorded && !r.exported.Some? ==> r.ledger == l
    ensures KeepsOthers(l, r.ledger, id)
    ensures AllHaveUrl(l) ==> AllHaveUrl(r.ledger)
    ensures r.exported.Some? ==> r.ok == r.exported.value.ok
    ensures r.exported.None? ==> !r.ok
  {
    var w := Await(env.poll, env.lag, MaxWaitTime, CheckInterval);
    if !w.success then Run(false, l, Some(req), true, Some(w), false, None)
    else
      match SelectGammaUrl(w.result.value)
      case None => Run(false, l, Some(req), true, Some(w), false, None)
      case Some(url) => Finish(env, l, req, w, id, url)
  }

  /** `generate_presentation` and what follows it, once the request is built. */
  function Post(env: Env, l: Ledger, req: Request): (r: Run)
    requires Valid(l)
    ensures Valid(r.ledger)
    ensures r.request == Some(req)
    ensures r.submitted <==> Truthy(env.apiKey)
    ensures r.waited.Some? <==> Submit(env.apiKey, env.submitCode, env.submitGenerationId).Created?
    ensures r.waited.Some? ==> r.waited.value == Await(env.poll, env.lag, MaxWaitTime, CheckInterval)
    ensures r.exported.Some? <==>
              r.waited.Some? && r.waited.value.success && SelectGammaUrl(r.waited.value.result.value).Some?
    ensures r.exported.Some? ==>
              && Submit(env.apiKey, env.submitCode, env.submitGenerationId).Created?
              && r.exported.value ==
                   DownloadPdf(SelectGammaUrl(r.waited.value.result.value).value,
                               Submit(env.apiKey, env.submitCode, env.submitGenerationId).generationId,
                               env.useBrowserExport, env.seleniumAvailable, env.fetch, env.browserOk)
    ensures r.recorded <==> r.exported.Some? && !HashFailed(env.recordHash) && env.addSaved
    ensures r.recorded ==>
              var id := Submit(env.apiKey, env.submitCode, env.submitGenerationId).generationId;
              && id in r.ledger.records
              && r.ledger.records[id].generationId == id
              && r.ledger.records[id].gammaUrl == SelectGammaUrl(r.waited.value.result.value).value
              && r.ledger.records[id].status == "completed"
    ensures r.recorded ==> HoldsFile(r.ledger, env.resolvedPath, env.recordHash.value)
    ensures r.exported.None? ==> r.ledger == l
    ensures r.exported.Some? ==>
              KeepsOthers(l, r.ledger, Submit(env.apiKey, env.submitCode, env.submitGenerationId).generationId)
    ensures AllHaveUrl(l) ==> AllHaveUrl(r.ledger)
    ensures r.exported.Some? ==> r.ok == r.exported.value.ok
    ensures r.exported.None? ==> !r.ok
  {
    match Submit(env.apiKey, env.submitCode, env.submitGenerationId)
    case MissingKey => Run(false, l, Some(req), false, None, false, None)
    case Rejected(_) => Run(false, l, Some(req), true, None, false, None)
    case NoGenerationId => Run(false, l, Some(req), true, None, false, None)
    case Created(id) => Complete(env, l, req, id)
  }

  /** The generation path: everything after the dedup check. */
  function Generate(env: Env, l: Ledger): (r: Run)
    requires Valid(l)
    ensures Valid(r.ledger)
    ensures !r.recorded && !r.exported.Some? ==> r.ledger == l
    ensures AllHaveUrl(l) ==> AllHaveUrl(r.ledger)
    ensures r.recorded ==> !HashFailed(env.recordHash) && HoldsFile(r.ledger, env.resolvedPath, env.recordHash.value)
    ensures r.request.Some? <==> !env.kind.Unsupported? && Truthy(env.extractedText) && !IsBlank(env.extractedText.value)
    ensures r.request.Some? ==>
              r.request.value.inputText == AssembleInput(env.extractedText.value, ImageUrlsOf(env)).inputText
    ensures r.request.Some? ==>
              && (r.request.value.imageOptions.source == "noImages" <==> |ImageUrlsOf(env)| > 0)
              && (r.request.value.imageOptions.model.Some? <==> |ImageUrlsOf(env)| == 0)
              && r.request.value.additionalInstructions == Some(AdditionalInstructions(|ImageUrlsOf(env)| > 0))
              && r.request.value.themeId == (if Truthy(env.themeId) then env.themeId else None)
              && r.request.value.numCards.None?
    ensures r.submitted <==> r.request.Some? && Truthy(env.apiKey)
    ensures r.waited.Some? <==> r.request.Some? && Submit(env.apiKey, env.submitCode, env.submitGenerationId).Created?
    ensures r.waited.Some? ==> r.waited.value == Await(env.poll, env.lag, MaxWaitTime, CheckInterval)
    ensures r.exported.Some? <==>
              r.waited.Some? && r.waited.value.success && SelectGammaUrl(r.waited.value.result.value).Some?
    ensures r.exported.Some? ==>
              && Submit(env.apiKey, env.submitCode, env.submitGenerationId).Created?
              && r.exported.value ==
                   DownloadPdf(SelectGammaUrl(r.waited.value.result.value).value,
                               Submit(env.apiKey, env.submitCode, env.submitGenerationId).generationId,
                               env.useBrowserExport, env.seleniumAvailable, env.fetch, env.browserOk)
    ensures r.recorded <==> r.exported.Some? && !HashFailed(env.recordHash) && env.addSaved
    ensures r.recorded ==>
              var id := Submit(env.apiKey, env.submitCode, env.submitGenerationId).generationId;
              && id in r.ledger.records
              && r.ledger.records[id].generationId == id
              && r.ledger.records[id].gammaUrl == SelectGammaUrl(r.waited.value.result.value).value
              && r.ledger.records[id].status == "completed"
    ensures !r.submitted ==> r.ledger == l
    ensures l.records.Keys <= r.ledger.records.Keys
    ensures r.exported.Some? ==>
              KeepsOthers(l, r.ledger, Submit(env.apiKey, env.submitCode, env.submitGenerationId).generationId)
    ensures r.exported.Some? ==> r.ok == r.exported.value.ok
    ensures r.exported.None? ==> !r.ok
  {
    match RequestFor(env)
    case None => Run(false, l, None, false, None, false, None)
    case Some(req) => Post(env, l, req)
  }

  /** The skip path of `process_file`: reuse a recorded generation, exporting it
      again only when the output file is missing. */
  function Reuse(env: Env, l: Ledger, rec: Record): (r: Run)
    ensures r.ok && !r.submitted && r.request.None? && r.waited.None? && !r.recorded && r.ledger == l
    ensures r.exported.Some? <==> !env.outputExists
    ensures r.exported.Some? ==>
              r.exported.value == DownloadPdf(rec.gammaUrl, rec.generationId, false, env.seleniumAvailable,
                                              env.fetch, env.browserOk)
  {
    var e := if env.outputExists then None
             else Some(DownloadPdf(rec.gammaUrl, rec.generationId, false, env.seleniumAvailable,
                                   env.fetch, env.browserOk));
    Run(true, l, None, false, None, false, e)
  }

  /** `process_file`. */
  function ProcessFile(env: Env, l: Ledger, force: bool): (r: Run)
    requires Valid(l)
    ensures Valid(r.ledger)
    ensures !env.fileExists ==> !r.ok && !r.submitted && r.ledger == l
    ensures r.submitted ==> r.request.Some?
    ensures r.recorded ==> r.submitted && r.exported.Some?
    ensures AllHaveUrl(l) ==> AllHaveUrl(r.ledger)
    ensures r.recorded ==> !HashFailed(env.recordHash) && HoldsFile(r.ledger, env.resolvedPath, env.recordHash.value)
    ensures !r.submitted ==> r.ledger == l
    ensures l.records.Keys <= r.ledger.records.Keys
    ensures env.fileExists && (force || CheckExisting(l, env.resolvedPath, env.lookupHash).None?
                                     || CheckExisting(l, env.resolvedPath, env.lookupHash).value.gammaUrl == "") ==>
              r == Generate(env, l)
  {
    if !env.fileExists then Run(false, l, None, false, None, false, None)
    else
      var existing := if force then None else CheckExisting(l, env.resolvedPath, env.lookupHash);
      if existing.Some? && existing.value.gammaUrl != "" then
        Reuse(env, l, existing.value)
      else
        Generate(env, l)
  }

  /** A known file's lookup finds a record, and when the first match carries a
      Gamma URL, so does the record found. */
  lemma FoundRecordCarriesUrl(l: Ledger, path: string, hash: Option<string>)
    requires Valid(l) && !HashFailed(hash)
    requires Known(l, path, hash.value) && FirstMatchCarriesUrl(l, path, hash.value)
    ensures CheckExisting(l, path, hash).Some?
    ensures CheckExisting(l, path, hash).value.gammaUrl != ""
  {
    var found := CheckExisting(l, path, hash);
    assert found.Some?;
    var i :| MatchesAt(l, i, path, hash.value) && found.value == l.records[l.order[i]]
             && forall j :: 0 <= j < i ==> !MatchesAt(l, j, path, hash.value);
  }

  /** The skip path: in a non-forced run, a file the ledger already knows, whose
      first matching record carries a Gamma URL, is never submitted again, the
      ledger is left as it is, and the export runs only when the output file is
      missing; with the output present, no remote call at all is made. */
  lemma KnownFileIsNotResubmitted(env: Env, l: Ledger)
    requires Valid(l)
    requires env.fileExists && !HashFailed(env.lookupHash)
    requires Known(l, env.resolvedPath, env.lookupHash.value)
    requires FirstMatchCarriesUrl(l, env.resolvedPath, env.lookupHash.value)
    ensures var r := ProcessFile(env, l, false);
            && r.ok && !r.submitted && r.request.None? && r.ledger == l
            && (r.exported.Some? <==> !env.outputExists)
  {
    var found := CheckExisting(l, env.resolvedPath, env.lookupHash);
    FoundRecordCarriesUrl(l, env.resolvedPath, env.lookupHash);
    assert ProcessFile(env, l, false) == Reuse(env, l, found.value);
  }

  /** The two hash reads are independent: when the lookup's read fails, a
      non-forced run takes the generation path even for a file the ledger
      already holds, and a successful record then adds a second record for it. */
  lemma FailedLookupHashRegenerates(env: Env, l: Ledger)
    requires Valid(l)
    requires env.fileExists && HashFailed(env.lookupHash)
    ensures ProcessFile(env, l, false) == Generate(env, l)
  {
    assert CheckExisting(l, env.resolvedPath, env.lookupHash).None?;
  }

  /** A run that recorded its generation leaves the file known to the ledger
      by its path alone and by the hash it recorded alone. */
  lemma RecordedFileIsKnown(env: Env, l: Ledger, force: bool)
    requires Valid(l)
    ensures var r := ProcessFile(env, l, force);
            r.recorded ==> && !HashFailed(env.recordHash)
                           && (forall p :: Known(r.ledger, p, env.recordHash.value))
                           && (forall h :: Known(r.ledger, env.resolvedPath, h))
  {
    var r := ProcessFile(env, l, force);
    if r.recorded {
      var id :| id in r.ledger.records && r.ledger.records[id].filePath == env.resolvedPath
                && r.ledger.records[id].fileHash == env.recordHash.value;
      forall p ensures Known(r.ledger, p, env.recordHash.value) {
        assert Matches(r.ledger.records[id], p, env.recordHash.value);
      }
      forall h ensures Known(r.ledger, env.resolvedPath, h) {
        assert Matches(r.ledger.records[id], env.resolvedPath, h);
      }
    }
  }

  /** Idempotency: once a run has recorded its generation, a later non-forced run
      on the same file (same resolved path, or a lookup hash equal to the recorded
      one) does not submit. */
  lemma SecondRunDoesNotSubmit(env: Env, env2: Env, l: Ledger, force: bool)
    requires Valid(l) && AllHaveUrl(l)
    requires env2.fileExists && !HashFailed(env2.lookupHash)
    requires env2.resolvedPath == env.resolvedPath || env2.lookupHash == env.recordHash
    ensures var r := ProcessFile(env, l, force);
            r.recorded ==> !ProcessFile(env2, r.ledger, false).submitted
  {
    var r := ProcessFile(env, l, force);
    if r.recorded {
      RecordedFileIsKnown(env, l, force);
      assert Known(r.ledger, env2.resolvedPath, env2.lookupHash.value);
      assert FirstMatchCarriesUrl(r.ledger, env2.resolvedPath, env2.lookupHash.value);
      KnownFileIsNotResubmitted(env2, r.ledger);
    }
  }

  /** The idempotency above is reachable: a forced run whose request is built and
      accepted, whose job completes with a Gamma URL, and whose record is hashed
      and saved records its generation, and a later non-forced run on the same
      path then does not submit. */
  lemma ForcedRunRecords(env: Env, env2: Env, l: Ledger)
    requires Valid(l) && AllHaveUrl(l)
    requires env.fileExists && RequestFor(env).Some?
    requires Submit(env.apiKey, env.submitCode, env.submitGenerationId).Created?
    requires Await(env.poll, env.lag, MaxWaitTime, CheckInterval).success
    requires SelectGammaUrl(Await(env.poll, env.lag, MaxWaitTime, CheckInterval).result.value).Some?
    requires !HashFailed(env.recordHash) && env.addSaved
    requires env2.fileExists && !HashFailed(env2.lookupHash) && env2.resolvedPath == env.resolvedPath
    ensures ProcessFile(env, l, true).recorded
    ensures !ProcessFile(env2, ProcessFile(env, l, true).ledger, false).submitted
  {
    assert ProcessFile(env, l, true) == Generate(env, l);
    SecondRunDoesNotSubmit(env, env2, l, true);
  }
}

=== FILE: polling.dfy ===
/** The generation client's status polling: `check_generation_status` and the
    `wait_for_completion` loop, over an abstract stream of poll results and an
    abstract clock.

    Clock model: the loop reads the clock once per condition check.  The elapsed
    time seen at the first check is `lag(0) >= 0`; between check `k` and check
    `k + 1` the loop sleeps `interval` and also loses `lag(k + 1) >= 0` to the
    status request and scheduling, so the clock advances at least `interval`
    per sleep. */
module Polling {
  import opened Common

  /** The fields of the generation result the tool reads afterwards. */
  datatype StatusBody = StatusBody(gammaUrl: Option<string>, url: Option<string>)

  /** What one call of `check_generation_status` yields to the loop:
      `(None, None)` (a query error) or a status string and the result object. */
  datatype PollResult = QueryError | Reply(status: string, body: StatusBody)

  /** The JSON `status` field of a status reply. */
  datatype Field = Missing | Null | Text(s: string)

  /** `check_generation_status`: a non-200 reply is a query error; a missing
      `status` reads as `"unknown"`; a JSON `null` status comes back as `None`,
      which the loop cannot tell apart from a query error. */
  function CheckGenerationStatus(code: int, status: Field, body: StatusBody): (p: PollResult)
    ensures p.Reply? ==> code == 200 && p.body == body
    ensures p.QueryError? <==> code != 200 || status.Null?
    ensures p.Reply? && status.Text? ==> p.status == status.s
    ensures p.Reply? && status.Missing? ==> p.status == "unknown"
  {
    if code != 200 then QueryError
    else
      match status
      case Missing => Reply("unknown", body)
      case Null => QueryError
      case Text(s) => Reply(s, body)
  }

  /** The branch `wait_for_completion` takes on one poll result. */
  datatype Phase = Errored | Completed | Failed | InProgress | Unknown

  function PhaseOf(p: PollResult): Phase {
    match p
    case QueryError => Errored
    case Reply(s, _) =>
      if s == "completed" then Completed
      else if s == "failed" then Failed
      else if s == "pending" || s == "processing" then InProgress
      else Unknown
  }

  /** The loop sleeps and polls again: `pending`, `processing` and any unknown status. */
  predicate KeepsPolling(p: PollResult) {
    PhaseOf(p) == InProgress || PhaseOf(p) == Unknown
  }

  /** The loop goes on exactly when the query succeeded with a status other than
      `completed` and `failed`; it returns a result exactly on those two. */
  lemma KeepsPollingIffNotTerminal(p: PollResult)
    ensures KeepsPolling(p) <==> p.Reply? && p.status != "completed" && p.status != "failed"
    ensures PhaseOf(p) == Completed || PhaseOf(p) == Failed <==>
              p.Reply? && (p.status == "completed" || p.status == "failed")
  {
  }

  /** Elapsed time (since `start_time`) read at the `k`-th condition check. */
  function Elapsed(lag: nat -> nat, interval: int, k: nat): int
    requires interval > 0
  {
    if k == 0 then lag(0) else Elapsed(lag, interval, k - 1) + interval + lag(k)
  }

  /** The clock reading at the `k`-th check is at least `k` sleeps of `interval`. */
  lemma {:induction false} ElapsedAtLeast(lag: nat -> nat, interval: int, k: nat)
    requires interval > 0
    ensures Elapsed(lag, interval, k) >= k * interval
  {
    if k > 0 {
      ElapsedAtLeast(lag, interval, k - 1);
      assert (k - 1) * interval + interval == k * interval;
    }
  }

  /** The loop's outcome `(success, result_data)` and how many status polls it made. */
  datatype Waited = Waited(success: bool, result: Option<StatusBody>, polls: nat)

  /** Reference definition of the loop from its `k`-th condition check on. */
  function AwaitFrom(poll: nat -> PollResult, lag: nat -> nat, maxWait: int, interval: int, k: nat): (w: Waited)
    requires interval > 0
    decreases if Elapsed(lag, interval, k) < maxWait then maxWait - Elapsed(lag, interval, k) else 0
    ensures w.polls >= k
    ensures w.success ==> w.result.Some?
  {
    if Elapsed(lag, interval, k) >= maxWait then Waited(false, None, k)
    else
      var p := poll(k);
      match PhaseOf(p)
      case Errored => Waited(false, None, k + 1)
      case Completed => Waited(true, Some(p.body), k + 1)
      case Failed => Waited(false, Some(p.body), k + 1)
      case InProgress => AwaitFrom(poll, lag, maxWait, interval, k + 1)
      case Unknown => AwaitFrom(poll, lag, maxWait, interval, k + 1)
  }

  /** The loop's polls from check `k` on: each was made within the budget, and
      each but the last kept the loop going. */
  lemma {:induction false} AwaitFromInBudget(poll: nat -> PollResult, lag: nat -> nat, maxWait: int, interval: int, k: nat)
    requires interval > 0
    decreases if Elapsed(lag, interval, k) < maxWait then maxWait - Elapsed(lag, interval, k) else 0
    ensures var w := AwaitFrom(poll, lag, maxWait, interval, k);
            && (forall i :: k <= i < w.polls ==> Elapsed(lag, interval, i) < maxWait)
            && (forall i :: k <= i < w.polls - 1 ==> KeepsPolling(poll(i)))
  {
    var w := AwaitFrom(poll, lag, maxWait, interval, k);
    if Elapsed(lag, interval, k) < maxWait {
      if KeepsPolling(poll(k)) {
        assert w == AwaitFrom(poll, lag, maxWait, interval, k + 1);
        AwaitFromInBudget(poll, lag, maxWait, interval, k + 1);
      } else {
        assert w.polls == k + 1;
      }
    }
  }

  /** The loop stops only on a terminal status or once the clock reading reaches
      the budget. */
  lemma {:induction false} AwaitFromStops(poll: nat -> PollResult, lag: nat -> nat, maxWait: int, interval: int, k: nat)
    requires interval > 0
    decreases if Elapsed(lag, interval, k) < maxWait then maxWait - Elapsed(lag, interval, k) else 0
    ensures var w := AwaitFrom(poll, lag, maxWait, interval, k);
            (w.polls > k && !KeepsPolling(poll(w.polls - 1))) || Elapsed(lag, interval, w.polls) >= maxWait
  {
    var w := AwaitFrom(poll, lag, maxWait, interval, k);
    if Elapsed(lag, interval, k) < maxWait {
      if KeepsPolling(poll(k)) {
        assert w == AwaitFrom(poll, lag, maxWait, interval, k + 1);
        AwaitFromStops(poll, lag, maxWait, interval, k + 1);
      } else {
        assert w.polls == k + 1;
      }
    } else {
      assert w.polls == k;
    }
  }

  /** The loop's outcome from check `k` on is decided by its last poll: success
      exactly on `completed`, and the status body returned on `completed` and
      `failed`. */
  lemma {:induction false} AwaitFromOutcome(poll: nat -> PollResult, lag: nat -> nat, maxWait: int, interval: int, k: nat)
    requires interval > 0
    decreases if Elapsed(lag, interval, k) < maxWait then maxWait - Elapsed(lag, interval, k) else 0
    ensures var w := AwaitFrom(poll, lag, maxWait, interval, k);
            && (w.success <==> w.polls > k && PhaseOf(poll(w.polls - 1)) == Completed)
            && (w.result.Some? <==>
                  w.polls > k && (PhaseOf(poll(w.polls - 1)) == Completed || PhaseOf(poll(w.polls - 1)) == Failed))
            && (w.result.Some? ==> w.result.value == poll(w.polls - 1).body)
  {
    if Elapsed(lag, interval, k) < maxWait && KeepsPolling(poll(k)) {
      assert AwaitFrom(poll, lag, maxWait, interval, k) == AwaitFrom(poll, lag, maxWait, interval, k + 1);
      AwaitFromOutcome(poll, lag, maxWait, interval, k + 1);
    }
  }

  function Await(poll: nat -> PollResult, lag: nat -> nat, maxWait: int, interval: int): Waited
    requires interval > 0
  {
    AwaitFrom(poll, lag, maxWait, interval, 0)
  }

  /** A query error seen within the budget ends the loop with `(False, None)`. */
  lemma QueryErrorEndsLoop(poll: nat -> PollResult, lag: nat -> nat, maxWait: int, interval: int, k: nat)
    requires interval > 0
    requires poll(k).QueryError? && Elapsed(lag, interval, k) < maxWait
    ensures AwaitFrom(poll, lag, maxWait, interval, k) == Waited(false, None, k + 1)
  {
    assert PhaseOf(poll(k)) == Errored;
  }

  /** A status reply whose `status` is JSON `null` ends the loop at once with
      `(False, None)`, exactly like a failed request. */
  lemma NullStatusEndsLoop(b: StatusBody, lag: nat -> nat, maxWait: int, interval: int)
    requires interval > 0 && lag(0) < maxWait
    ensures Await(_ => CheckGenerationStatus(200, Null, b), lag, maxWait, interval) == Waited(false, None, 1)
  {
    QueryErrorEndsLoop(_ => CheckGenerationStatus(200, Null, b), lag, maxWait, interval, 0);
  }

  /** `wait_for_completion` as the loop it is.  Its outcome is the reference
      definition's, and it never polls after the time budget is spent. */
  method WaitForCompletion(poll: nat -> PollResult, lag: nat -> nat, maxWait: int, interval: int)
    returns (success: bool, result: Option<StatusBody>, polls: nat)
    requires interval > 0
    ensures Waited(success, result, polls) == Await(poll, lag, maxWait, interval)
    ensures polls == 0 || (polls - 1) * interval < maxWait
  {
    polls := 0;
    var elapsed := lag(0);
    while elapsed < maxWait
      invariant elapsed == Elapsed(lag, interval, polls)
      invariant AwaitFrom(poll, lag, maxWait, interval, polls) == Await(poll, lag, maxWait, interval)
      invariant polls == 0 || (polls - 1) * interval < maxWait
      decreases maxWait - elapsed
    {
      ElapsedAtLeast(lag, interval, polls);
      var p := poll(polls);
      polls := polls + 1;
      match PhaseOf(p)
      case Errored =>
        return false, None, polls;
      case Completed =>
        return true, Some(p.body), polls;
      case Failed =>
        return false, Some(p.body), polls;
      case InProgress =>
        elapsed := elapsed + interval + lag(polls);
      case Unknown =>
        elapsed := elapsed + interval + lag(polls);
    }
    return false, None, polls;
  }

  /** `p * d <= n` bounds `p` by `n / d`. */
  lemma DivBound(p: int, d: int, n: int)
    requires d > 0 && p * d <= n
    ensures p <= n / d
  {
    var q, r := n / d, n % d;
    assert n == q * d + r && 0 <= r < d;
    assert p * d < (q + 1) * d;
  }

  /** The poll count bound: no polls at all when `max_wait_time <= 0`, and at most
      ceil(max_wait_time / check_interval) polls otherwise. */
  lemma PollCountBound(poll: nat -> PollResult, lag: nat -> nat, maxWait: int, interval: int)
    requires interval > 0
    ensures maxWait <= 0 ==> Await(poll, lag, maxWait, interval).polls == 0
    ensures maxWait > 0 ==> Await(poll, lag, maxWait, interval).polls <= (maxWait + interval - 1) / interval
  {
    var w := Await(poll, lag, maxWait, interval);
    AwaitFromInBudget(poll, lag, maxWait, interval, 0);
    if w.polls > 0 {
      var last := w.polls - 1;
      assert Elapsed(lag, interval, last) < maxWait;
      ElapsedAtLeast(lag, interval, last);
      assert last * interval < maxWait;
      assert w.polls * interval == last * interval + interval;
      DivBound(w.polls, interval, maxWait + interval - 1);
    }
  }

  /** The `i`-th check is within the budget and its status keeps the loop going. */
  predicate Continues(poll: nat -> PollResult, lag: nat -> nat, maxWait: int, interval: int, i: nat)
    requires interval > 0
  {
    KeepsPolling(poll(i)) && Elapsed(lag, interval, i) < maxWait
  }

  /** One non-terminal poll within the budget hands over to the next check. */
  lemma StepPolling(poll: nat -> PollResult, lag: nat -> nat, maxWait: int, interval: int, k: nat)
    requires interval > 0
    requires Continues(poll, lag, maxWait, interval, k)
    ensures AwaitFrom(poll, lag, maxWait, interval, k) == AwaitFrom(poll, lag, maxWait, interval, k + 1)
  {
    var p := poll(k);
    assert PhaseOf(p) == InProgress || PhaseOf(p) == Unknown;
  }

  /** Statuses that keep the loop polling, all seen within the budget, do not
      change where the loop ends up. */
  lemma {:induction false} SkipPolling(poll: nat -> PollResult, lag: nat -> nat, maxWait: int, interval: int, k: nat, n: nat)
    requires interval > 0 && k <= n
    requires forall i :: k <= i < n ==> Continues(poll, lag, maxWait, interval, i)
    ensures AwaitFrom(poll, lag, maxWait, interval, k) == AwaitFrom(poll, lag, maxWait, interval, n)
    decreases n - k
  {
    if k < n {
      StepPolling(poll, lag, maxWait, interval, k);
      SkipPolling(poll, lag, maxWait, interval, k + 1, n);
    }
  }

  /** The outcome is success on the `n+1`-th poll exactly when that poll observes
      `completed` within the budget, after `n` polls that kept the loop going. */
  lemma CompletedIffObserved(poll: nat -> PollResult, lag: nat -> nat, maxWait: int, interval: int, n: nat)
    requires interval > 0
    ensures Await(poll, lag, maxWait, interval).success && Await(poll, lag, maxWait, interval).polls == n + 1
            <==>
            && PhaseOf(poll(n)) == Completed
            && Elapsed(lag, interval, n) < maxWait
            && (forall i :: 0 <= i < n ==> Continues(poll, lag, maxWait, interval, i))
  {
    AwaitFromInBudget(poll, lag, maxWait, interval, 0);
    AwaitFromOutcome(poll, lag, maxWait, interval, 0);
    if PhaseOf(poll(n)) == Completed && Elapsed(lag, interval, n) < maxWait
       && (forall i :: 0 <= i < n ==> Continues(poll, lag, maxWait, interval, i)) {
      SkipPolling(poll, lag, maxWait, interval, 0, n);
    }
  }

  /** A query error at check `n`, after `n` polls that kept the loop going, all
      within the budget, ends the loop with `(False, None)` after `n + 1` polls. */
  lemma QueryErrorAfterPolling(poll: nat -> PollResult, lag: nat -> nat, maxWait: int, interval: int, n: nat)
    requires interval > 0
    requires forall i :: 0 <= i < n ==> Continues(poll, lag, maxWait, interval, i)
    requires poll(n).QueryError? && Elapsed(lag, interval, n) < maxWait
    ensures Await(poll, lag, maxWait, interval) == Waited(false, None, n + 1)
  {
    SkipPolling(poll, lag, maxWait, interval, 0, n);
    QueryErrorEndsLoop(poll, lag, maxWait, interval, n);
  }

  /** A stream of `pending`, `processing`, then `completed`. */
  function ScenarioStream(k: nat): PollResult {
    if k == 0 then Reply("pending", StatusBody(None, None))
    else if k == 1 then Reply("processing", StatusBody(None, None))
    else Reply("completed", StatusBody(Some("https://gamma.app/docs/x"), None))
  }

  /** With a 10-second budget, a 5-second interval and no latency, the third status
      check happens at elapsed time 10, which is not below the budget: the loop gives
      up after two polls, without observing `completed`. */
  lemma ScenarioTimesOutAtBoundary()
    ensures Await(ScenarioStream, _ => 0, 10, 5) == Waited(false, None, 2)
  {
    var lag: nat -> nat := _ => 0;
    assert Elapsed(lag, 5, 0) == 0;
    assert Elapsed(lag, 5, 1) == 5;
    assert Elapsed(lag, 5, 2) == 10;
    assert AwaitFrom(ScenarioStream, lag, 10, 5, 2) == Waited(false, None, 2);
  }

  /** One more second of budget and the same stream completes on the third poll. */
  lemma ScenarioCompletesWithSlack()
    ensures Await(ScenarioStream, _ => 0, 11, 5).success
    ensures Await(ScenarioStream, _ => 0, 11, 5).polls == 3
  {
    var lag: nat -> nat := _ => 0;
    assert Elapsed(lag, 5, 1) == 5;
    assert Elapsed(lag, 5, 2) == 10;
    assert AwaitFrom(ScenarioStream, lag, 11, 5, 2) == Waited(true, Some(ScenarioStream(2).body), 3);
  }

  /** `result.get("gammaUrl") or result.get("url")`: the first truthy of the two fields. */
  function SelectGammaUrl(b: StatusBody): (r: Option<string>)
    ensures r.Some? ==> r.value != "" && (r == b.gammaUrl || r == b.url)
    ensures Truthy(b.gammaUrl) ==> r == b.gammaUrl
    ensures r.None? <==> !Truthy(b.gammaUrl) && !Truthy(b.url)
  {
    if Truthy(b.gammaUrl) then b.gammaUrl
    else if Truthy(b.url) then b.url
    else None
  }
}

=== FILE: submission.dfy ===
/** The generation request of `generate_presentation`: the JSON payload it posts
    to `/generations` and how it reads the reply.  The HTTP call itself is an
    oracle: its status code and the reply's `generationId` field are inputs. */
module Submission {
  import opened Common

  datatype TextOptions = TextOptions(amount: string, tone: string, audience: string, language: string)

  /** `imageOptions`; `None` marks a key that is not sent. */
  datatype ImageOptions = ImageOptions(source: string, model: Option<string>, style: Option<string>)

  /** The request body; the three optional top-level keys are `None` when not sent. */
  datatype Request = Request(
    inputText: string,
    textMode: string,
    format: string,
    cardSplit: string,
    exportAs: string,
    themeId: Option<string>,
    numCards: Option<int>,
    additionalInstructions: Option<string>,
    textOptions: TextOptions,
    imageOptions: ImageOptions,
    cardDimensions: string)

  /** Python truthiness of an optional integer: neither `None` nor `0`. */
  predicate TruthyInt(n: Option<int>) {
    n.Some? && n.value != 0
  }

  /** The payload `generate_presentation` builds. */
  function BuildRequest(inputText: string, themeId: Option<string>, numCards: Option<int>,
                        additionalInstructions: Option<string>, hasImageUrls: bool): (r: Request)
    ensures r.inputText == inputText
    ensures r.imageOptions.source == "noImages" <==> hasImageUrls
    ensures r.imageOptions.source == "aiGenerated" <==> !hasImageUrls
    ensures r.imageOptions.model.Some? <==> r.imageOptions.source == "aiGenerated"
    ensures r.imageOptions.style.Some? <==> r.imageOptions.source == "aiGenerated"
    ensures r.themeId.Some? <==> Truthy(themeId)
    ensures r.themeId.Some? ==> r.themeId == themeId
    ensures r.numCards.Some? <==> TruthyInt(numCards)
    ensures r.numCards.Some? ==> r.numCards == numCards
    ensures r.additionalInstructions.Some? <==> Truthy(additionalInstructions)
    ensures r.additionalInstructions.Some? ==> r.additionalInstructions == additionalInstructions
    ensures r.textMode == "generate" && r.format == "presentation" && r.exportAs == "pdf"
  {
    var source := if hasImageUrls then "noImages" else "aiGenerated";
    var images :=
      if source == "aiGenerated" then ImageOptions(source, Some("imagen-4-pro"), Some("photorealistic"))
      else ImageOptions(source, None, None);
    Request(
      inputText, "generate", "presentation", "auto", "pdf",
      if Truthy(themeId) then themeId else None,
      if TruthyInt(numCards) then numCards else None,
      if Truthy(additionalInstructions) then additionalInstructions else None,
      TextOptions("detailed", "professional", "general", "en"),
      images,
      "fluid")
  }

  /** How the submission ends: no credential (the source raises), a rejected
      request, a reply without a generation id, or the id of the new job. */
  datatype Submitted = MissingKey | Rejected(code: int) | NoGenerationId | Created(generationId: string)

  function Submit(apiKey: Option<string>, code: int, generationId: Option<string>): (s: Submitted)
    ensures s.MissingKey? <==> !Truthy(apiKey)
    ensures s.Rejected? <==> Truthy(apiKey) && code != 200 && code != 201
    ensures s.Created? <==> Truthy(apiKey) && (code == 200 || code == 201) && Truthy(generationId)
    ensures s.Created? ==> s.generationId == generationId.value && s.generationId != ""
  {
    if !Truthy(apiKey) then MissingKey
    else if code != 200 && code != 201 then Rejected(code)
    else if !Truthy(generationId) then NoGenerationId
    else Created(generationId.value)
  }
}
